=== FILE: README.md ===
# orthoseg batch prediction: a Dafny model

This project models the per-tile decision logic of orthoseg's batch predictor
(`orthoseg/segment_predict.py`) and proves properties of it. orthoseg runs a
trained segmentation model over a directory of geo-referenced raster tiles and
writes one prediction raster per tile. The model covers:

- `clean_prediction` (module `Clean`): a one-channel prediction in [0, 1]
  becomes an 8-bit mask of eleven bands, `25 * trunc(10 * x)`, reshaped to
  H x W, with a border margin zeroed as Python's slice assignments do it.
- the decision part of `save_prediction_uint8` (module `Save`): the
  geo-transform check, the `<output_dir>/<stem>_pred.tif` name, and the rule
  that a mask with no pixel of at least 125 is not written.
- `read_image` (module `Reader`): at most three read attempts, then the
  fallback projection when the file has no CRS.
- `predict_dir` (modules `Tiles`, `Predict`, `PredictProps`): the resume
  filter over the done and error logs, deriving output paths in normal and
  evaluation mode, and the batching loop. The loop is a left fold over the
  sorted path list. Its state holds the pending batch, the flushed batches,
  the two logs, the rasters written (also by tiles whose evaluation step
  raised after the save) and the exception that ended the run.
  Each tile's postprocessing is isolated in its own error handler. The loop
  sees a batch's reading, inference and postprocessing only through its
  result, a `Tiles.BatchStep`: it raises, or it yields one verdict per tile.
  A run uses `Tiles.RunBatch`, which builds that step from the oracles.
- the Python library behaviour these rely on: `posixpath.basename`, `split`,
  `splitext` and `join` (module `Paths`); `str.rfind`, `str.rstrip` and
  `str.replace` (module `PyStr`); and `sorted` on strings (module `Ordering`).

The outside world is a value of type `Tiles.Env`. It says whether the input
directory exists, what the two globs return, the lines already in the two log
files, the outcome of each read attempt per path, the model (`infer`), and
whether each directory creation, raster write and evaluation step succeeds.
Predictions are `Clean.Prediction` values: rectangular tensors whose values lie
in [0, 1], which is what the model promises.

Two behaviours of the code deserve a note:

- `read_image` runs outside the per-tile `try`
  (orthoseg/segment_predict.py:179-189). A read that fails three times, or a
  file with no CRS and no fallback projection, therefore raises out of
  `predict_dir`, and no tile of that batch is logged, in either log. See
  `Predict.Flush` and `Tiles.BatchVerdicts`.
- The comment at orthoseg/segment_predict.py:165 says a batch is processed
  when it is full "or we are at the last images". The test at line 168 is only
  reached for paths that were not skipped. So when the last sorted path is
  skipped, the final partial batch is never flushed (see Findings).

## Model

| member | source | states |
|---|---|---|
| Clean.Quantize | orthoseg/segment_predict.py:318-319 | a value x in [0, 1] becomes a multiple of 25 between 0 and 250 that lies within one band below 250x, and it reaches 125 exactly when x >= 0.5 |
| Clean.ZeroBorder | orthoseg/segment_predict.py:326-331 | the shape is kept. For a margin b > 0, a pixel is 0 exactly when it lies within b of any edge (the whole axis when b reaches H or W); for None or b <= 0 every pixel is kept |
| Clean.CleanPrediction | orthoseg/segment_predict.py:303-332 | more than one channel raises before the dtype is looked at, and a non-float32 dtype raises. It succeeds exactly for single-channel float32 input (or an empty zero-channel one). The result is H x W; each pixel is 0 in the border and the quantized value elsewhere, so every pixel is one of 0, 25, ..., 250 |
| Save.HasSignal | orthoseg/segment_predict.py:360-361 | true exactly when some pixel of the mask is at least 125 |
| Save.OutputPath | orthoseg/segment_predict.py:355-357 | the path is the output directory, one separator and the file name, which is the stem of the image's file name followed by `_pred.tif`: the prefix, the file name and the total length are all fixed |
| Save.JoinedPredPath | orthoseg/segment_predict.py:355-357 | a prediction path built by joining a stem onto a directory splits back into that directory and the stem's `_pred.tif` file name |
| Save.SavePrediction | orthoseg/segment_predict.py:334-376 | a missing transform or one with a zero pixel width raises whatever the mask holds. With a valid transform, a failed mkdir raises. Otherwise it returns None exactly when no pixel reaches 125. When some pixel reaches 125 it returns the output path (`<output_dir>/<stem>_pred.tif`) if the write succeeds, and raises a write error if it does not |
| Reader.Retry | orthoseg/segment_predict.py:262-284 | it fails, with a count of 3, exactly when none of the remaining attempts up to the third succeeds. Otherwise it returns the raster of the first successful attempt |
| Reader.ReadImage | orthoseg/segment_predict.py:257-301 | three failed attempts raise. After the first success, a present CRS is kept; a missing one is replaced by the fallback projection, or raises when none is given |
| Reader.AtMostThreeAttempts | orthoseg/segment_predict.py:262-284 | the result never depends on a fourth or later attempt |
| Reader.TwoFailuresThenSuccess | orthoseg/segment_predict.py:262-301 | two failed reads followed by a good one yield that raster unchanged |
| PyStr.RStrip | orthoseg/segment_predict.py:118 | the result is a prefix of the line. Everything cut off is whitespace, and the result does not end in whitespace |
| PyStr.RStripLine | orthoseg/segment_predict.py:116-122 | a log line written as `name + "\n"` reads back as `name` when the name has no trailing whitespace |
| PyStr.ReplaceAll | orthoseg/segment_predict.py:149 | a string with no occurrence, or a replacement equal to the pattern, leaves the string as it is |
| PyStr.ReplaceFirst | orthoseg/segment_predict.py:149 | when the leftmost occurrence of the pattern starts at position k, the text before k is kept, the occurrence becomes the replacement, and the scan goes on right after the occurrence |
| Paths.Basename | orthoseg/segment_predict.py:136 | the result is the part of the path after the last separator and holds no separator |
| Paths.Split | orthoseg/segment_predict.py:146 | the tail is the basename. The head is a prefix of the path, and only separators lie between head and tail. A head that ends in a separator consists of separators only, and when everything before the tail is separators (as in `/a`), the head keeps all of them |
| Paths.SplitExt | orthoseg/segment_predict.py:142 | root and extension concatenate back to the path. The extension is empty or one dot followed by no dot or separator. It is non-empty exactly when the last component has a dot that follows a character other than a dot, and then the root ends just before the last dot |
| Paths.StemOfBasename | orthoseg/segment_predict.py:142-147 | dropping the extension and then taking the basename equals taking the stem of the basename |
| Paths.Join | orthoseg/segment_predict.py:110-111 | the result ends with the second component. An absolute second component replaces the first. Otherwise the result starts with the first component and adds at most one separator, none when the first component is empty or already ends in one, and a bare name becomes the basename |
| Paths.JoinName | orthoseg/segment_predict.py:110-111 | a bare name joined onto a directory that does not end in a separator gives exactly the directory, one separator and the name |
| Ordering.Sort | orthoseg/segment_predict.py:129 | the result is sorted in Python's string order and is a permutation of the input |
| Ordering.SortedUnique | orthoseg/segment_predict.py:129 | two sorted permutations of the same paths are equal |
| Ordering.SortDeterministic | orthoseg/segment_predict.py:100-129 | the processing order depends only on which paths the globs found, not on the order they came in |
| Tiles.MakeItem | orthoseg/segment_predict.py:142-151 | the work item keeps the input path. Its prediction path ends in `_pred.tif`; in normal mode it is the extensionless path with every occurrence of the input directory replaced by the output directory, then `_pred.tif`. The output directory is the head of the prediction path |
| Tiles.NormalItem | orthoseg/segment_predict.py:142-151 | in normal mode, a tile `input_dir/rest` whose path holds the input directory's name only at its start gets the prediction path `output_base_dir/<rest without extension>_pred.tif` |
| Tiles.NormalItemDir | orthoseg/segment_predict.py:142-151 | for such a tile the output directory is the output directory itself, or its sub-directory mirroring the tile's one below the input directory, and the prediction file is `<stem>_pred.tif` |
| Tiles.ReadAll | orthoseg/segment_predict.py:175-189 | it succeeds exactly when every tile's read succeeds, and then it gives one raster per tile in batch order. Otherwise it raises the error of the first failing tile in batch order |
| Tiles.PostprocessTile | orthoseg/segment_predict.py:200-229 | a missing prediction, a failed clean, a failed save or (in evaluation mode) a failed evaluation step each gives the matching error; a failed evaluation step carries the raster the save already wrote. Otherwise the verdict is the save's result. A written path is the path `save_prediction_uint8` derives |
| Tiles.WrittenByIsSaved | orthoseg/segment_predict.py:200-226 | a tile leaves a raster on disk exactly when the save step wrote one, whether or not the evaluation step that follows raises, and that raster is at the path `save_prediction_uint8` derives |
| Tiles.BatchVerdicts | orthoseg/segment_predict.py:175-205 | a failed read raises the first failing read's error, and a failed inference raises. Otherwise there is one verdict per tile, and verdict j is the postprocessing of tile j with its raster and prediction j |
| Tiles.TilesLandInExactlyOneLog | orthoseg/segment_predict.py:200-240 | the done and error names of a batch together are exactly the batch's file names, each once |
| Tiles.VerdictDecidesLog | orthoseg/segment_predict.py:230-240 | a tile whose postprocessing succeeded is in the done log; one whose postprocessing raised is in the error log |
| Tiles.AllBlankTilesAreDone | orthoseg/segment_predict.py:200-240 | when every verdict of a batch is a success without a written raster, every tile is logged as done, none as an error, and no raster is written |
| Predict.SkipSet | orthoseg/segment_predict.py:112-122 | with `force` nothing is skipped. Without it, the rstripped form of every line of both logs is skipped, and nothing else |
| Predict.LogPath | orthoseg/segment_predict.py:110-111 | the log file's basename is the name it is given. When the output directory is non-empty and does not end in a separator, splitting the log path gives back exactly that directory and the name |
| Predict.LogNamesArePlain | orthoseg/segment_predict.py:110-111 | `images_done.txt` and `images_error.txt` are distinct plain file names |
| Predict.SortedPaths | orthoseg/segment_predict.py:100-129 | the paths are the glob results, as a sorted permutation |
| Predict.Todo | orthoseg/segment_predict.py:132-139 | a path survives exactly when it is found and its file name is not in the skip set |
| Predict.ForceSkipsNothing | orthoseg/segment_predict.py:112-139 | with `force`, every found path is processed |
| Predict.Flush | orthoseg/segment_predict.py:169-255 | a failed read or inference raises and leaves the batch, the flushed batches and the logs untouched. Otherwise the batch is flushed and the pending batch is emptied. The done log grows by the names of the tiles that succeeded and the error log by the names of those that failed, in batch order, and the written rasters grow by the paths the tiles wrote, those whose evaluation step raised after the save included |
| Predict.Step | orthoseg/segment_predict.py:132-168 | once the run has raised, an iteration changes nothing; an iteration flushes at most one batch |
| Predict.StepLogsGrow | orthoseg/segment_predict.py:132-168 | an iteration only appends to the two logs and the written rasters, and changes none of them when it flushes nothing |
| Predict.RunLogsGrow | orthoseg/segment_predict.py:132-255 | between the loop states `Predict.RunPrefix` reaches after a prefix of the sorted paths and after a longer one, the logs and the written rasters only grow at their ends, and at most one batch is flushed per path |
| Predict.StepKeepsInv | orthoseg/segment_predict.py:132-168 | one loop iteration preserves the loop invariant. Batches hold 1 to `batch_size` tiles and all but the last are full; the logs hold exactly the flushed names; flushed and pending tiles are the surviving paths so far, in order |
| Predict.RunKeepsInv | orthoseg/segment_predict.py:132-255 | the invariant holds after every prefix of the sorted paths |
| Predict.FinalBatch | orthoseg/segment_predict.py:166-168 | at the end of a run without a raise, the loop as written leaves exactly the stranded tiles pending, and the corrected loop leaves none |
| Predict.Run | orthoseg/segment_predict.py:85-130 | the run returns without running exactly when the input directory does not exist. A failed mkdir of the output directory, or a batch size <= 0, raises before anything is queued or logged |
| Predict.PredictDir | orthoseg/segment_predict.py:85-255 | a missing input directory returns without running. A failed mkdir or a batch size <= 0 raises before anything is logged. Each flushed batch holds 1 to `batch_size` tiles and all but the last are full. The logs hold exactly the flushed tiles' names. The flushed and pending tiles are the surviving paths in sorted order, and the pending tiles number the stranded count |
| Predict.PredictDirFixed | orthoseg/segment_predict.py:166-168 | corrected loop: a run without a raise flushes every surviving tile and leaves nothing pending, and the logs hold exactly the surviving tiles' names |
| PredictProps.EvalModeFlattens | orthoseg/segment_predict.py:92-151 | in evaluation mode the output directory gets the `_eval` suffix (lines 92-93): every tile's output directory is `output_base_dir + "_eval"`, and the prediction path is the one `save_prediction_uint8` writes |
| PredictProps.MaskSignalIffConfident | orthoseg/segment_predict.py:318-361 | the cleaned mask has a pixel of at least 125 exactly when the prediction is at least 0.5 somewhere outside the border |
| PredictProps.WrittenIffConfident | orthoseg/segment_predict.py:200-376 | when every collaborator succeeds, the tile is done, and a raster is written exactly when the prediction is at least 0.5 somewhere outside the border |
| PredictProps.EvalFailureKeepsRaster | orthoseg/segment_predict.py:200-237 | in evaluation mode, a confident tile whose evaluation step raises after a successful save is logged as an error, not as done, and its raster still counts as written |
| PredictProps.SkipIffLogged | orthoseg/segment_predict.py:112-139 | a path is processed exactly when it was found and either `force` is set or its file name is on no rstripped line of either log |
| PredictProps.VisitedInSortedOrder | orthoseg/segment_predict.py:129-139 | the surviving paths are visited in sorted order |
| PredictProps.RunLogsPlanned | orthoseg/segment_predict.py:132-255 | whatever the outcome, a run has logged exactly the tiles of an initial part of its plan |
| PredictProps.LoggedAreFound | orthoseg/segment_predict.py:132-240 | every logged name is the file name of a path the globs found |
| PredictProps.RerunSkipsLogged | orthoseg/segment_predict.py:112-139 | without `force`, the next run skips everything this run logged and everything skipped before |
| PredictProps.FixedRerunIsNoOp | orthoseg/segment_predict.py:112-168 | after a corrected run without a raise, a second run without `force` over the same files does nothing |
| PredictProps.LoggedCount | orthoseg/segment_predict.py:166-240 | after a run without a raise, the logged tiles plus the stranded ones number the surviving tiles. In the corrected loop, the logged tiles alone do |
| PredictProps.NoTilesNoWork | orthoseg/segment_predict.py:100-132 | with no matching tiles, the run ends without a raise and with nothing queued, logged or written |
| PredictProps.AllLoggedWhenLastSurvives | orthoseg/segment_predict.py:166-168 | when the last sorted path is not skipped, the loop as written logs every surviving tile once |
| PredictProps.StrandedTile | orthoseg/segment_predict.py:166-168 | as written: two paths, batches of two, the second one skipped. The run ends without a raise, one tile pending and nothing logged |
| PredictProps.StrandedTileFixed | orthoseg/segment_predict.py:166-168 | corrected: in the same situation the run ends with exactly one flush of the batch holding the first tile |
| PredictProps.MissingPredictionVerdict | orthoseg/segment_predict.py:194-205 | when the model returns fewer predictions than tiles, the tile without one gets an error verdict |
| PredictProps.StrandedTileExample | orthoseg/segment_predict.py:132-168 | for `d/a.tif` and `d/b.tif` with `b.tif` already done, the loop as written never logs `a.tif`; the corrected loop logs it as done when its prediction is blank |
| PredictProps.BlankFlush | orthoseg/segment_predict.py:200-233 | a one-tile batch that is read at once and whose prediction is nowhere confident (with a valid transform and a working directory, write and, in evaluation mode, evaluation step) is logged as done, with no error and no raster written |
| PredictProps.AllBlankPredictionsDone | orthoseg/segment_predict.py:175-240 | when a whole batch is read, the model answers, and every tile's prediction is single-channel float32 and nowhere confident (with a valid transform and working mkdir, write and evaluation step), the batch step succeeds, every tile is logged as done, none as an error, and no raster is written |
| PredictProps.EveryOccurrenceReplaced | orthoseg/segment_predict.py:149-151 | with input directory `d` and output directory `o`, the tile `d/dd/a.tif` is predicted to `o/oo/a_pred.tif` in `o/oo`, since `str.replace` rewrites every occurrence of `d` |
| PredictProps.RerunStrandedStaysPending | orthoseg/segment_predict.py:112-168 | as written: after a run without a raise, a second run without `force` over the same files logs nothing, writes nothing, flushes nothing, and leaves pending only tiles the first run left pending |

## Left out

- The `ThreadPoolExecutor` read pool is modelled as a sequential map. Consuming `pool.map` in order raises the first failing read in batch order, which `Tiles.ReadAll` models.
- `model.predict_on_batch` is the oracle `Env.infer`. `None` stands for a raise, which leaves the run. A list shorter than the batch makes the unmatched tiles fail inside their `try`.
- The rasterio open, read and write calls, `reshape_as_image`, the division by 255 and `os.mkdir` are I/O. They become the oracles `attempts`, `mkdirOk` and `writeOk`. A read attempt yields the CRS, the transform and the pixels.
- `rio.crs.CRS.from_string` is not modelled: the fallback projection is stored as given, and an unparsable string is not treated as an error.
- `save_prediction_uint8` passes `shape[0]` as the raster width and `shape[1]` as the height. Whether rasterio accepts that for non-square tiles is left to the `writeOk` oracle.
- The log files are sequences of lines: what was there at start, plus what the run appended (`PredictProps.AfterRun`). A log file that does not exist is an empty sequence. The per-write open and close, and what a crash leaves behind, are not modelled.
- The glob is the oracle `tifPaths` / `jpgPaths`. Which files `**` matches is the file system's business.
- Only POSIX paths are modelled, with `/` as the separator. Windows `ntpath` rules are not.
- The throughput and ETA computation, `print` and all logging calls use wall-clock time and floating point, and they do not affect control flow.
- The `postp.to_binary_uint8` and `postp.postprocess_for_evaluation` calls are the oracle `evalOk`, which says whether the evaluation step raised. `input_mask_dir` is only passed on to that step.
- Clean.Quantize: computes `10 * x` exactly over the reals. The float32 product in the source may round, so a float32 value just below a band edge could land in the next band; the model does not capture that. Values outside [0, 1] (and NaN) are excluded by the `Prediction` type, so the uint8 cast never wraps.
- `border_pixels_to_ignore` is an `Option<int>`. Truthy non-integer values (booleans, floats) are not modelled.
- The `force` argument of `save_prediction_uint8` and its `border_pixels_to_ignore` parameter are unused by the source and are not parameters of `Save.SavePrediction`.
- `orthoseg/lib/trainer.py`, `helper_scripts/convert_labels.py`, `docs/conf.py` and `examples/sealedsurfaces_predict.py` are not part of this model. They are training orchestration, label conversion, documentation configuration and an entry point.

## Findings

| source | as written | input that shows it | evidently intended | confidence | as-written member | corrected member |
|---|---|---|---|---|---|---|
| orthoseg/segment_predict.py:166-168 | the end-of-list check `i == nb_todo - 1` is reached only for paths that were not skipped, so when the last sorted path is skipped, the trailing partial batch is never read, predicted or logged. Every later run queues the same tiles again and strands them again (`PredictProps.RerunStrandedStaysPending`) | `d/a.tif`, `d/b.tif`, batch size 2, `b.tif` in the done log: `a.tif` is queued and never processed | the remaining batch is flushed when the list is exhausted, skipped last path or not | high (proved about the model; not executed) | PredictProps.StrandedTileExample | PredictProps.FixedRerunIsNoOp |

=== FILE: base.dfy ===
/** Failure-carrying wrappers shared by every module of the model. */
module Base {

  /** A value that may be absent (Python's `None`). */
  datatype Option<+T> = None | Some(value: T)

  /** Either a computed value or the exception an operation would raise. */
  datatype Result<+T, +E> = Success(value: T) | Failure(error: E)

  function Min(a: int, b: int): int { if a <= b then a else b }

  function Max(a: int, b: int): int { if a <= b then b else a }
}

=== FILE: clean.dfy ===
/** `clean_prediction`: turns a one-channel prediction in [0, 1] into an 8-bit
    mask of eleven confidence bands and blanks a border margin. */
module Clean {
  import opened Base

  datatype DType = Float32 | OtherDType(name: string)

  /** A height x width x channels array as numpy holds it. */
  datatype Tensor = Tensor(height: nat, width: nat, channels: nat, dtype: DType,
                           values: seq<seq<seq<real>>>)
  {
    /** Rectangular, with every value in [0, 1]. */
    predicate Valid()
    {
      && |values| == height
      && (forall r :: 0 <= r < height ==> |values[r]| == width)
      && (forall r, c :: 0 <= r < height && 0 <= c < width ==> |values[r][c]| == channels)
      && (forall r, c, k :: 0 <= r < height && 0 <= c < width && 0 <= k < channels ==>
            0.0 <= values[r][c][k] <= 1.0)
    }
  }

  /** What the model returns for one tile. */
  type Prediction = t: Tensor | t.Valid() witness Tensor(0, 0, 1, Float32, [])

  datatype CleanError =
    | MultipleChannels(channels: nat)  // only one-channel output is supported
    | WrongDType(dtype: DType)         // the prediction must be float32
    | ReshapeFailed                    // a zero-channel array cannot be reshaped to a non-empty mask

  /** A mask of `h` rows of `w` pixels. */
  predicate IsGrid(m: seq<seq<int>>, h: nat, w: nat)
  {
    |m| == h && forall r :: 0 <= r < h ==> |m[r]| == w
  }

  /** `astype(uint8)` of `x * 10`, times 25: the band of `x`. */
  function Quantize(x: real): (v: int)
    requires 0.0 <= x <= 1.0
    ensures 0 <= v <= 250 && v % 25 == 0
    ensures v as real <= 250.0 * x < v as real + 25.0
    ensures v >= 125 <==> x >= 0.5
  {
    25 * (10.0 * x).Floor
  }

  /** Python's normalisation of a slice bound `i` on an axis of length `len`. */
  function SliceBound(i: int, len: nat): (r: nat)
    ensures r <= len
  {
    if i < 0 then Max(0, len + i) else Min(i, len)
  }

  /** `m[lo:hi, :] = 0` */
  function ZeroRows(m: seq<seq<int>>, lo: int, hi: int): (r: seq<seq<int>>)
    ensures |r| == |m|
    ensures forall i :: 0 <= i < |m| ==> |r[i]| == |m[i]|
    ensures forall i, j :: 0 <= i < |m| && 0 <= j < |m[i]| ==>
              r[i][j] == if lo <= i < hi then 0 else m[i][j]
  {
    seq(|m|, i requires 0 <= i < |m| => if lo <= i < hi then seq(|m[i]|, j => 0) else m[i])
  }

  /** `m[:, lo:hi] = 0` */
  function ZeroCols(m: seq<seq<int>>, lo: int, hi: int): (r: seq<seq<int>>)
    ensures |r| == |m|
    ensures forall i :: 0 <= i < |m| ==> |r[i]| == |m[i]|
    ensures forall i, j :: 0 <= i < |m| && 0 <= j < |m[i]| ==>
              r[i][j] == if lo <= j < hi then 0 else m[i][j]
  {
    seq(|m|, i requires 0 <= i < |m| =>
      seq(|m[i]|, j requires 0 <= j < |m[i]| => if lo <= j < hi then 0 else m[i][j]))
  }

  /** Pixel (r, c) of an h x w mask lies in the blanked margin of width `border`. */
  predicate InBorder(border: Option<int>, h: nat, w: nat, r: nat, c: nat)
  {
    border.Some? && border.value > 0 &&
    var b := border.value;
    r < b || r >= h - b || c < b || c >= w - b
  }

  /** The four slice assignments of the source; a missing, zero or negative margin blanks nothing. */
  function ZeroBorder(m: seq<seq<int>>, border: Option<int>, h: nat, w: nat): (r: seq<seq<int>>)
    requires IsGrid(m, h, w)
    ensures IsGrid(r, h, w)
    ensures forall i, j :: 0 <= i < h && 0 <= j < w ==>
              r[i][j] == if InBorder(border, h, w, i, j) then 0 else m[i][j]
  {
    if border.Some? && border.value > 0 then
      var b := border.value;
      var top := ZeroRows(m, 0, SliceBound(b, h));
      var bottom := ZeroRows(top, SliceBound(-b, h), h);
      var left := ZeroCols(bottom, 0, SliceBound(b, w));
      ZeroCols(left, SliceBound(-b, w), w)
    else
      m
  }

  /** The banded mask before any border is blanked (the reshape to h x w drops the channel axis). */
  function Bands(p: Prediction): (m: seq<seq<int>>)
    requires p.channels == 1 || p.height == 0 || p.width == 0
    ensures IsGrid(m, p.height, p.width)
  {
    seq(p.height, r requires 0 <= r < p.height =>
      seq(p.width, c requires 0 <= c < p.width => Quantize(p.values[r][c][0])))
  }

  /** `clean_prediction(image_pred_arr, border_pixels_to_ignore)`. */
  function CleanPrediction(p: Prediction, border: Option<int>): (r: Result<seq<seq<int>>, CleanError>)
    ensures p.channels > 1 ==> r == Failure(MultipleChannels(p.channels))
    ensures p.channels <= 1 && p.dtype != Float32 ==> r == Failure(WrongDType(p.dtype))
    ensures r.Success? <==>
              p.dtype == Float32 && (p.channels == 1 || (p.channels == 0 && (p.height == 0 || p.width == 0)))
    ensures r.Success? ==> IsGrid(r.value, p.height, p.width)
    ensures r.Success? ==> forall i, j :: 0 <= i < p.height && 0 <= j < p.width ==>
              r.value[i][j] == if InBorder(border, p.height, p.width, i, j) then 0 else Quantize(p.values[i][j][0])
    ensures r.Success? ==> forall i, j :: 0 <= i < p.height && 0 <= j < p.width ==>
              0 <= r.value[i][j] <= 250 && r.value[i][j] % 25 == 0
  {
    if p.channels > 1 then Failure(MultipleChannels(p.channels))
    else if p.dtype != Float32 then Failure(WrongDType(p.dtype))
    else if p.channels == 0 && p.height != 0 && p.width != 0 then Failure(ReshapeFailed)
    else Success(ZeroBorder(Bands(p), border, p.height, p.width))
  }
}

=== FILE: ordering.dfy ===
/** Python's ordering of `str` values (code point by code point, a proper prefix first)
    and `sorted` on a list of paths. */
module Ordering {

  /** `a <= b` in Python's string comparison. */
  predicate LexLe(a: string, b: string)
  {
    |a| == 0 || (|b| > 0 && (a[0] < b[0] || (a[0] == b[0] && LexLe(a[1..], b[1..]))))
  }

  lemma {:induction false} LexLeReflexive(a: string)
    ensures LexLe(a, a)
  {
    if |a| > 0 {
      LexLeReflexive(a[1..]);
    }
  }

  lemma {:induction false} LexLeTotal(a: string, b: string)
    ensures LexLe(a, b) || LexLe(b, a)
  {
    if |a| > 0 && |b| > 0 && a[0] == b[0] {
      LexLeTotal(a[1..], b[1..]);
    }
  }

  lemma {:induction false} LexLeTransitive(a: string, b: string, c: string)
    requires LexLe(a, b) && LexLe(b, c)
    ensures LexLe(a, c)
  {
    if |a| > 0 && a[0] == b[0] && b[0] == c[0] {
      LexLeTransitive(a[1..], b[1..], c[1..]);
    }
  }

  lemma {:induction false} LexLeAntisymmetric(a: string, b: string)
    requires LexLe(a, b) && LexLe(b, a)
    ensures a == b
  {
    if |a| > 0 {
      LexLeAntisymmetric(a[1..], b[1..]);
      assert a == [a[0]] + a[1..] && b == [b[0]] + b[1..];
    }
  }

  predicate Sorted(s: seq<string>)
  {
    forall i, j :: 0 <= i < j < |s| ==> LexLe(s[i], s[j])
  }

  /** Inserts `x` in front of the first element it does not exceed. */
  function Insert(x: string, s: seq<string>): (r: seq<string>)
    requires Sorted(s)
    ensures Sorted(r)
    ensures multiset(r) == multiset(s) + multiset{x}
  {
    if |s| == 0 then [x]
    else if LexLe(x, s[0]) then
      assert forall j :: 0 < j < |s| ==> LexLe(x, s[j]) by {
        forall j | 0 < j < |s| ensures LexLe(x, s[j]) { LexLeTransitive(x, s[0], s[j]); }
      }
      [x] + s
    else
      LexLeTotal(x, s[0]);
      assert s == [s[0]] + s[1..];
      var tail := Insert(x, s[1..]);
      assert forall j :: 0 <= j < |tail| ==> LexLe(s[0], tail[j]) by {
        forall j | 0 <= j < |tail| ensures LexLe(s[0], tail[j]) {
          assert tail[j] in multiset(tail);
          if tail[j] != x {
            assert tail[j] in s[1..];
            SortedHeadIsLeast(s, tail[j]);
          }
        }
      }
      [s[0]] + tail
  }

  /** Python's `sorted(paths)`: an ordered permutation of its input. */
  function Sort(s: seq<string>): (r: seq<string>)
    ensures Sorted(r)
    ensures multiset(r) == multiset(s)
  {
    if |s| == 0 then []
    else
      assert s == s[..|s| - 1] + [s[|s| - 1]];
      Insert(s[|s| - 1], Sort(s[..|s| - 1]))
  }

  /** The first element of a sorted sequence is its least. */
  lemma SortedHeadIsLeast(s: seq<string>, x: string)
    requires Sorted(s) && x in s
    ensures LexLe(s[0], x)
  {
    var i :| 0 <= i < |s| && s[i] == x;
    if i == 0 {
      LexLeReflexive(x);
    }
  }

  lemma SortedTail(s: seq<string>)
    requires Sorted(s) && |s| > 0
    ensures Sorted(s[1..])
    ensures multiset(s[1..]) == multiset(s) - multiset{s[0]}
  {
    var t := s[1..];
    forall i, j | 0 <= i < j < |t| ensures LexLe(t[i], t[j]) {
      assert t[i] == s[i + 1] && t[j] == s[j + 1];
    }
    assert s == [s[0]] + t;
  }

  lemma SortedSameHead(a: seq<string>, b: seq<string>)
    requires Sorted(a) && Sorted(b) && |a| > 0
    requires multiset(a) == multiset(b)
    ensures |b| > 0 && a[0] == b[0]
  {
    assert a[0] in multiset(b);
    assert |b| > 0 && b[0] in multiset(a);
    SortedHeadIsLeast(a, b[0]);
    SortedHeadIsLeast(b, a[0]);
    LexLeAntisymmetric(a[0], b[0]);
  }

  /** Two ordered arrangements of the same paths are the same sequence. */
  lemma {:induction false} SortedUnique(a: seq<string>, b: seq<string>)
    requires Sorted(a) && Sorted(b)
    requires multiset(a) == multiset(b)
    ensures a == b
  {
    if |a| == 0 {
      assert |multiset(b)| == 0;
    } else {
      SortedSameHead(a, b);
      SortedTail(a);
      SortedTail(b);
      SortedUnique(a[1..], b[1..]);
      assert a == [a[0]] + a[1..] && b == [b[0]] + b[1..];
    }
  }

  /** The processing order depends only on which paths were found, not on the
      order the directory listing returned them in. */
  lemma SortDeterministic(a: seq<string>, b: seq<string>)
    requires multiset(a) == multiset(b)
    ensures Sort(a) == Sort(b)
  {
    SortedUnique(Sort(a), Sort(b));
  }
}

=== FILE: paths.dfy ===
/** The parts of Python's `posixpath` used to derive input and output names. */
module Paths {
  import opened PyStr

  const Sep: char := '/'

  predicate IsSep(c: char) { c == Sep }

  /** `os.path.basename(p)`: everything after the last separator. */
  function Basename(p: string): (r: string)
    ensures Sep !in r
  {
    var i := LastIndexOf(p, Sep) + 1;
    assert forall k :: 0 <= k < |p[i..]| ==> p[i..][k] == p[i + k];
    p[i..]
  }

  /** The basename is the part of the path after its last separator. */
  lemma BasenameIsSuffix(p: string)
    ensures var r := Basename(p);
      && |r| <= |p| && r == p[|p| - |r|..]
      && (|r| < |p| ==> p[|p| - |r| - 1] == Sep)
  {
  }

  /** A name without separators that directly follows a separator (or starts the path) is its basename. */
  lemma BasenameOfSuffix(q: string, b: string)
    requires Sep !in b
    requires |q| > 0 ==> q[|q| - 1] == Sep
    ensures Basename(q + b) == b
  {
    var p := q + b;
    LastIndexOfUnique(p, Sep, |q| - 1);
  }

  /** `os.path.split(p)`: the tail is the basename; the head is the rest with its
      trailing separators removed, unless it consists of separators only. */
  function Split(p: string): (r: (string, string))
    ensures r.1 == Basename(p)
    ensures |r.0| + |r.1| <= |p| && r.0 == p[..|r.0|]
    ensures forall k :: |r.0| <= k < |p| - |r.1| ==> p[k] == Sep
    ensures |r.0| > 0 && r.0[|r.0| - 1] == Sep ==> forall k :: 0 <= k < |r.0| ==> r.0[k] == Sep
    ensures (forall k :: 0 <= k < |p| - |r.1| ==> p[k] == Sep) ==> |r.0| == |p| - |r.1|
  {
    var i := LastIndexOf(p, Sep) + 1;
    var head := p[..i];
    if head != [] && exists k :: 0 <= k < |head| && head[k] != Sep then
      var h := TrimRight(head, IsSep);
      (h, p[i..])
    else
      (head, p[i..])
  }

  /** Splitting `head + "/" + tail` gives back its two parts when the head does
      not end in a separator and the tail holds none. */
  lemma SplitJoined(head: string, tail: string)
    requires |head| > 0 && head[|head| - 1] != Sep
    requires Sep !in tail
    ensures Split(head + [Sep] + tail) == (head, tail)
  {
    var p := head + [Sep] + tail;
    forall k | |head| < k < |p| ensures p[k] != Sep {
      assert p[k] == tail[k - |head| - 1];
    }
    LastIndexOfUnique(p, Sep, |head|);
    var h := p[..|head| + 1];
    assert h == head + [Sep];
    assert h[|head| - 1] != Sep;
    assert p[|head| + 1..] == tail;
    assert h[..|head|] == head;
  }

  /** Some character of `p[lo..hi]` is not a dot. */
  predicate HasNonDot(p: string, lo: int, hi: int)
    requires 0 <= lo <= hi <= |p|
  {
    exists k :: lo <= k < hi && p[k] != '.'
  }

  /** `os.path.splitext(p)`: the extension starts at the last dot of the last
      component, provided that dot is not part of the component's leading dots. */
  function SplitExt(p: string): (r: (string, string))
    ensures r.0 + r.1 == p
    ensures r.1 == [] || (r.1[0] == '.' && Sep !in r.1 && '.' !in r.1[1..])
    ensures r.1 != [] <==>
              exists k :: LastIndexOf(p, Sep) < k < |p| && p[k] == '.' && HasNonDot(p, LastIndexOf(p, Sep) + 1, k)
    ensures r.1 != [] ==> |r.0| == LastIndexOf(p, '.')
  {
    var sepIndex := LastIndexOf(p, Sep);
    var dotIndex := LastIndexOf(p, '.');
    assert (exists k :: sepIndex < k < |p| && p[k] == '.' && HasNonDot(p, sepIndex + 1, k))
           ==> dotIndex > sepIndex && HasNonDot(p, sepIndex + 1, dotIndex) by {
      if exists k :: sepIndex < k < |p| && p[k] == '.' && HasNonDot(p, sepIndex + 1, k) {
        var k :| sepIndex < k < |p| && p[k] == '.' && HasNonDot(p, sepIndex + 1, k);
        var m :| sepIndex + 1 <= m < k && p[m] != '.';
        assert dotIndex >= k;
      }
    }
    if dotIndex > sepIndex && HasNonDot(p, sepIndex + 1, dotIndex) then
      assert p[..dotIndex] + p[dotIndex..] == p;
      assert forall k :: 0 <= k < |p[dotIndex..]| ==> p[dotIndex..][k] == p[dotIndex + k];
      (p[..dotIndex], p[dotIndex..])
    else
      (p, [])
  }

  /** Below a directory prefix ending in a separator, the extension of a path is
      the extension of its part under that prefix. */
  lemma SplitExtUnder(a: string, rest: string)
    requires |a| > 0 && a[|a| - 1] == Sep
    ensures SplitExt(a + rest).0 == a + SplitExt(rest).0
  {
    var p := a + rest;
    var sr := LastIndexOf(rest, Sep);
    var dr := LastIndexOf(rest, '.');
    LastSepUnder(a, rest);
    LastDotUnder(a, rest);
    if dr > sr {
      NonDotUnder(a, rest, sr + 1, dr);
      assert p[..|a| + dr] == a + rest[..dr];
    }
  }

  lemma LastSepUnder(a: string, rest: string)
    requires |a| > 0 && a[|a| - 1] == Sep
    ensures LastIndexOf(a + rest, Sep) == |a| + LastIndexOf(rest, Sep)
  {
    var p := a + rest;
    var sr := LastIndexOf(rest, Sep);
    forall k | |a| + sr < k < |p| ensures p[k] != Sep {
      assert p[k] == rest[k - |a|];
    }
    LastIndexOfUnique(p, Sep, |a| + sr);
  }

  lemma LastDotUnder(a: string, rest: string)
    requires |a| > 0 && a[|a| - 1] == Sep
    ensures LastIndexOf(rest, '.') >= 0 ==> LastIndexOf(a + rest, '.') == |a| + LastIndexOf(rest, '.')
    ensures LastIndexOf(rest, '.') < 0 ==> LastIndexOf(a + rest, '.') < |a| - 1
  {
    var p := a + rest;
    var dr := LastIndexOf(rest, '.');
    if dr >= 0 {
      forall k | |a| + dr < k < |p| ensures p[k] != '.' {
        assert p[k] == rest[k - |a|];
      }
      LastIndexOfUnique(p, '.', |a| + dr);
    }
  }

  lemma NonDotUnder(a: string, rest: string, lo: int, hi: int)
    requires 0 <= lo <= hi <= |rest|
    ensures HasNonDot(a + rest, |a| + lo, |a| + hi) <==> HasNonDot(rest, lo, hi)
  {
    var p := a + rest;
    if HasNonDot(rest, lo, hi) {
      var m :| lo <= m < hi && rest[m] != '.';
      assert p[|a| + m] == rest[m];
    }
    if HasNonDot(p, |a| + lo, |a| + hi) {
      var m :| |a| + lo <= m < |a| + hi && p[m] != '.';
      assert rest[m - |a|] == p[m];
    }
  }

  /** The file name without its extension. */
  function Stem(name: string): (r: string)
    ensures Sep !in name ==> Sep !in r
  {
    var parts := SplitExt(name);
    assert forall k :: 0 <= k < |parts.0| ==> parts.0[k] == name[k];
    parts.0
  }

  /** The last dot of the basename is the last dot of the path, when it lies after the last separator. */
  lemma LastDotOfBasename(p: string)
    ensures var s := LastIndexOf(p, Sep); var d := LastIndexOf(p, '.');
      LastIndexOf(Basename(p), '.') == (if d > s then d - s - 1 else -1)
  {
    var s := LastIndexOf(p, Sep);
    var d := LastIndexOf(p, '.');
    var q := Basename(p);
    var dq := if d > s then d - s - 1 else -1;
    assert q == p[s + 1..];
    if dq >= 0 {
      assert q[dq] == p[d];
    }
    forall k | dq < k < |q| ensures q[k] != '.' {
      assert q[k] == p[s + 1 + k];
    }
    LastIndexOfUnique(q, '.', dq);
  }

  lemma HasNonDotShift(p: string, s: int, q: string, dq: int)
    requires -1 <= s < |p| && q == p[s + 1..]
    requires 0 <= dq <= |q|
    ensures HasNonDot(q, 0, dq) <==> HasNonDot(p, s + 1, s + 1 + dq)
  {
    if HasNonDot(p, s + 1, s + 1 + dq) {
      var k :| s + 1 <= k < s + 1 + dq && p[k] != '.';
      assert q[k - s - 1] == p[k];
    }
  }

  /** The basename of a prefix that still contains the last separator. */
  lemma BasenameOfPrefix(p: string, d: int)
    requires LastIndexOf(p, Sep) < d <= |p|
    ensures Basename(p[..d]) == p[LastIndexOf(p, Sep) + 1..d]
  {
    var s := LastIndexOf(p, Sep);
    var root := p[..d];
    forall k | s < k < |root| ensures root[k] != Sep {
      assert root[k] == p[k];
    }
    LastIndexOfUnique(root, Sep, s);
  }

  /** Dropping the extension of a whole path and then taking its basename gives the
      stem of the basename: the two orders used by the prediction loop agree. */
  lemma StemOfBasename(p: string)
    ensures Basename(SplitExt(p).0) == Stem(Basename(p))
  {
    var s := LastIndexOf(p, Sep);
    var d := LastIndexOf(p, '.');
    var q := Basename(p);
    LastIndexOfUnique(q, Sep, -1);
    LastDotOfBasename(p);
    if d > s {
      HasNonDotShift(p, s, q, d - s - 1);
      if HasNonDot(p, s + 1, d) {
        BasenameOfPrefix(p, d);
      }
    }
  }

  /** `os.path.join(a, b)` for two components. */
  function Join(a: string, b: string): (r: string)
    ensures EndsWith(r, b)
    ensures |b| > 0 && b[0] == Sep ==> r == b
    ensures Sep !in b ==> Basename(r) == b
    ensures !(|b| > 0 && b[0] == Sep) ==> |a| <= |r| <= |a| + |b| + 1 && r[..|a|] == a
    ensures !(|b| > 0 && b[0] == Sep) && (a == [] || a[|a| - 1] == Sep) ==> r == a + b
  {
    if |b| > 0 && b[0] == Sep then b
    else if a == [] || a[|a| - 1] == Sep then
      assert Sep !in b ==> Basename(a + b) == b by {
        if Sep !in b { BasenameOfSuffix(a, b); }
      }
      a + b
    else
      assert Sep !in b ==> Basename(a + [Sep] + b) == b by {
        if Sep !in b { BasenameOfSuffix(a + [Sep], b); }
      }
      a + [Sep] + b
  }

  /** Joining a bare name onto a directory that does not end in a separator
      puts exactly one separator between them. */
  lemma JoinName(a: string, b: string)
    requires |a| > 0 && a[|a| - 1] != Sep && Sep !in b
    ensures Join(a, b) == a + [Sep] + b
  {
    assert !(|b| > 0 && b[0] == Sep) by {
      if |b| > 0 { assert b[0] in b; }
    }
    assert a != [] && a[|a| - 1] != Sep;
  }
}

=== FILE: predict.dfy ===
/** `predict_dir`: the resume filter over the sorted tile list, the batching
    loop, and the done/error logs, as a left fold over the sorted paths. */
module Predict {
  import opened Base
  import opened PyStr
  import Ordering
  import opened Paths
  import opened Reader
  import opened Tiles

  /** The loop's state after some prefix of the sorted paths. `done`, `errors`
      and `written` are what this run appended to the two logs and the rasters
      it wrote (including those of tiles whose evaluation step raised after the
      save); `flushed` are the batches that went through postprocessing;
      `fatal` is the exception that ended the run, if any. */
  datatype State = State(
    batch: seq<WorkItem>,
    flushed: seq<seq<WorkItem>>,
    done: seq<string>,
    errors: seq<string>,
    written: seq<string>,
    fatal: Option<Fatal>)

  /** What the call to `predict_dir` does: return at once because the input
      directory does not exist, or run the loop (possibly ending in a raise). */
  datatype Outcome = InputMissing | Ran(final: State)

  const Initial: State := State([], [], [], [], [], None)

  /** `os.path.exists(input_image_dir)`; the empty path never exists. */
  predicate InputExists(cfg: Config, env: Env)
  {
    cfg.inputDir != [] && env.inputDirExists
  }

  const DoneLogName := "images_done.txt"
  const ErrorLogName := "images_error.txt"

  /** A log file of the run, `name` joined onto the output directory. */
  function LogPath(cfg: Config, name: string): (r: string)
    requires Sep !in name
    ensures Basename(r) == name
    ensures var base := OutputBase(cfg);
      |base| > 0 && base[|base| - 1] != Sep ==> Split(r) == (base, name)
  {
    var base := OutputBase(cfg);
    assert |base| > 0 && base[|base| - 1] != Sep ==> Split(Join(base, name)) == (base, name) by {
      if |base| > 0 && base[|base| - 1] != Sep {
        JoinName(base, name);
        SplitJoined(base, name);
      }
    }
    Join(base, name)
  }

  /** The two log names are plain file names, and distinct. */
  lemma LogNamesArePlain()
    ensures Sep !in DoneLogName && Sep !in ErrorLogName && DoneLogName != ErrorLogName
  {
    assert forall k :: 0 <= k < |DoneLogName| ==> DoneLogName[k] != Sep;
    assert forall k :: 0 <= k < |ErrorLogName| ==> ErrorLogName[k] != Sep;
    assert DoneLogName[7] != ErrorLogName[7];
  }

  /** The names a log file holds: each line with trailing whitespace removed. */
  function LogNames(lines: seq<string>): set<string>
  {
    set i | 0 <= i < |lines| :: RStrip(lines[i])
  }

  /** Names read from both logs; nothing is skipped under `force`. */
  function SkipSet(cfg: Config, env: Env): (r: set<string>)
    ensures cfg.force ==> r == {}
    ensures !cfg.force ==> forall i :: 0 <= i < |env.doneLogLines| ==> RStrip(env.doneLogLines[i]) in r
    ensures !cfg.force ==> forall i :: 0 <= i < |env.errorLogLines| ==> RStrip(env.errorLogLines[i]) in r
    ensures forall n :: n in r ==> n in LogNames(env.doneLogLines) || n in LogNames(env.errorLogLines)
  {
    if cfg.force then {} else LogNames(env.doneLogLines) + LogNames(env.errorLogLines)
  }

  predicate Skipped(skip: set<string>, p: string)
  {
    Basename(p) in skip
  }

  /** The two glob results, `.tif` first, in the order the loop visits them. */
  function SortedPaths(env: Env): (r: seq<string>)
    ensures Ordering.Sorted(r)
    ensures multiset(r) == multiset(env.tifPaths + env.jpgPaths)
  {
    Ordering.Sort(env.tifPaths + env.jpgPaths)
  }

  /** The paths that survive the resume filter, in visiting order. */
  function Todo(paths: seq<string>, skip: set<string>): (r: seq<string>)
    ensures forall p :: p in r <==> p in paths && !Skipped(skip, p)
    ensures |r| <= |paths|
  {
    if |paths| == 0 then []
    else
      var last := paths[|paths| - 1];
      var front := paths[..|paths| - 1];
      assert paths == front + [last];
      Todo(front, skip) + (if Skipped(skip, last) then [] else [last])
  }

  lemma TodoSnoc(paths: seq<string>, skip: set<string>, i: nat)
    requires i < |paths|
    ensures Todo(paths[..i + 1], skip) == Todo(paths[..i], skip) + (if Skipped(skip, paths[i]) then [] else [paths[i]])
  {
    assert paths[..i + 1][..i] == paths[..i];
  }

  lemma TodoLast(paths: seq<string>, skip: set<string>)
    requires |paths| > 0
    ensures var last := paths[|paths| - 1];
      Todo(paths, skip) == Todo(paths[..|paths| - 1], skip) + (if Skipped(skip, last) then [] else [last])
  {
  }

  /** The filter works path by path, so it distributes over concatenation. */
  lemma {:induction false} TodoAppend(a: seq<string>, b: seq<string>, skip: set<string>)
    ensures Todo(a + b, skip) == Todo(a, skip) + Todo(b, skip)
    decreases |b|
  {
    if |b| == 0 {
      assert a + b == a;
    } else {
      var ab, front, last := a + b, b[..|b| - 1], b[|b| - 1];
      var t := if Skipped(skip, last) then [] else [last];
      TodoAppend(a, front, skip);
      TodoLast(ab, skip);
      TodoLast(b, skip);
      DropLastOfAppend(a, b);
      assert Todo(ab, skip) == Todo(a + front, skip) + t;
      AssocThree(Todo(a, skip), Todo(front, skip), t);
    }
  }

  lemma AssocThree<T>(x: seq<T>, y: seq<T>, z: seq<T>)
    ensures (x + y) + z == x + (y + z)
  {
  }

  lemma DropLastOfAppend<T>(a: seq<T>, b: seq<T>)
    requires |b| > 0
    ensures (a + b)[..|a + b| - 1] == a + b[..|b| - 1] && (a + b)[|a + b| - 1] == b[|b| - 1]
  {
  }

  /** Filtering with a smaller skip set first changes nothing. */
  lemma {:induction false} TodoTwice(paths: seq<string>, small: set<string>, large: set<string>)
    requires small <= large
    ensures Todo(Todo(paths, small), large) == Todo(paths, large)
  {
    if |paths| > 0 {
      var front, last := paths[..|paths| - 1], paths[|paths| - 1];
      TodoTwice(front, small, large);
      var kept := if Skipped(small, last) then [] else [last];
      TodoAppend(Todo(front, small), kept, large);
      assert Todo(kept, large) == if Skipped(large, last) then [] else [last] by {
        if kept != [] {
          assert kept[..0] == [];
        }
      }
    }
  }

  /** A prefix of the paths leaves no more survivors than all of them. */
  lemma TodoPrefixLen(paths: seq<string>, skip: set<string>, i: nat)
    requires i <= |paths|
    ensures |Todo(paths[..i], skip)| <= |Todo(paths, skip)|
  {
    var a, b := paths[..i], paths[i..];
    assert a + b == paths;
    TodoAppend(a, b, skip);
    assert |Todo(paths, skip)| == |Todo(a, skip)| + |Todo(b, skip)|;
  }

  /** An empty skip set lets every path through. */
  lemma {:induction false} NothingSkipped(paths: seq<string>)
    ensures Todo(paths, {}) == paths
  {
    if |paths| > 0 {
      var front, last := paths[..|paths| - 1], paths[|paths| - 1];
      NothingSkipped(front);
      assert paths == front + [last];
    }
  }

  /** With `force`, every found path is processed. */
  lemma ForceSkipsNothing(cfg: Config, env: Env, paths: seq<string>)
    requires cfg.force
    ensures Todo(paths, SkipSet(cfg, env)) == paths
  {
    NothingSkipped(paths);
  }

  function Items(cfg: Config, ps: seq<string>): (r: seq<WorkItem>)
    requires cfg.inputDir != []
    ensures |r| == |ps|
    ensures forall j :: 0 <= j < |ps| ==> r[j] == MakeItem(cfg, ps[j])
  {
    seq(|ps|, j requires 0 <= j < |ps| => MakeItem(cfg, ps[j]))
  }

  lemma ItemsAppend(cfg: Config, a: seq<string>, b: seq<string>)
    requires cfg.inputDir != []
    ensures Items(cfg, a + b) == Items(cfg, a) + Items(cfg, b)
  {
  }

  /** Extending the prefix by one path extends the surviving items by its item, unless skipped. */
  lemma ItemsSnoc(cfg: Config, skip: set<string>, paths: seq<string>, i: nat)
    requires cfg.inputDir != [] && i < |paths|
    ensures Items(cfg, Todo(paths[..i + 1], skip))
         == Items(cfg, Todo(paths[..i], skip)) + (if Skipped(skip, paths[i]) then [] else [MakeItem(cfg, paths[i])])
  {
    var t, p := Todo(paths[..i], skip), paths[i];
    TodoSnoc(paths, skip, i);
    if Skipped(skip, p) {
      assert t + [] == t;
      assert Items(cfg, t) + [] == Items(cfg, t);
    } else {
      ItemsAppend(cfg, t, [p]);
      assert Items(cfg, [p]) == [MakeItem(cfg, p)];
    }
  }

  /** The batches one after another. */
  function Flatten(bs: seq<seq<WorkItem>>): seq<WorkItem>
  {
    if |bs| == 0 then [] else Flatten(bs[..|bs| - 1]) + bs[|bs| - 1]
  }

  lemma FlattenSnoc(bs: seq<seq<WorkItem>>, b: seq<WorkItem>)
    ensures Flatten(bs + [b]) == Flatten(bs) + b
  {
    assert (bs + [b])[..|bs|] == bs;
  }

  /** Reading, inference and postprocessing of the pending batch, then logging
      each tile. A read or inference failure raises out of the run before any
      tile of the batch is logged. */
  function Flush(cfg: Config, post: BatchStep, st: State): (r: State)
    requires st.fatal.None?
    ensures post(st.batch).Failure? ==>
              r == st.(fatal := Some(post(st.batch).error))
    ensures r.fatal.Some? ==> r == st.(fatal := r.fatal)
    ensures r.fatal.None? ==> r.batch == [] && r.flushed == st.flushed + [st.batch]
    ensures r.fatal.None? ==>
              multiset(r.done + r.errors) == multiset(st.done + st.errors) + multiset(Names(st.batch))
    ensures post(st.batch).Success? ==>
              var vs := post(st.batch).value;
              && r.done == st.done + DoneNames(st.batch, vs)
              && r.errors == st.errors + ErrorNames(st.batch, vs)
              && r.written == st.written + WrittenPaths(vs)
  {
    match post(st.batch)
    case Failure(f) => st.(fatal := Some(f))
    case Success(vs) =>
      TilesLandInExactlyOneLog(st.batch, vs);
      var d := DoneNames(st.batch, vs);
      var e := ErrorNames(st.batch, vs);
      assert multiset(st.done + d + (st.errors + e)) == multiset(st.done + st.errors) + multiset(d + e);
      State([], st.flushed + [st.batch], st.done + d, st.errors + e,
            st.written + WrittenPaths(vs), None)
  }

  /** One iteration of the loop, at index `i` of the sorted paths. A path is
      appended to the batch unless skipped; the batch is flushed when it is full
      or when the appended path is the last one (`i == nb_todo - 1`). With
      `fixed`, a skipped last path also flushes a non-empty batch. */
  function Step(cfg: Config, post: BatchStep, skip: set<string>, paths: seq<string>, i: nat, st: State, fixed: bool): (r: State)
    requires cfg.inputDir != [] && i < |paths|
    ensures st.fatal.Some? ==> r == st
    ensures |st.flushed| <= |r.flushed| <= |st.flushed| + 1
  {
    if st.fatal.Some? then st
    else if Skipped(skip, paths[i]) then
      if fixed && i == |paths| - 1 && |st.batch| > 0 then Flush(cfg, post, st) else st
    else
      var st1 := st.(batch := st.batch + [MakeItem(cfg, paths[i])]);
      if |st1.batch| == cfg.batchSize || i == |paths| - 1 then Flush(cfg, post, st1) else st1
  }

  /** An iteration only appends to the logs and to the written rasters, and
      only when it flushes a batch. */
  lemma StepLogsGrow(cfg: Config, post: BatchStep, skip: set<string>, paths: seq<string>, i: nat, st: State, fixed: bool)
    requires cfg.inputDir != [] && i < |paths|
    ensures var r := Step(cfg, post, skip, paths, i, st, fixed);
      && (r.flushed == st.flushed ==> r.done == st.done && r.errors == st.errors && r.written == st.written)
      && Grown(st, r, 1)
  {
    var r := Step(cfg, post, skip, paths, i, st, fixed);
    if r.done != st.done || r.errors != st.errors || r.written != st.written {
      var b := if Skipped(skip, paths[i]) then st.batch else st.batch + [MakeItem(cfg, paths[i])];
      var f := Flush(cfg, post, st.(batch := b));
      assert r == f;
      assert post(b).Success?;
      var vs := post(b).value;
      assert r.done[..|st.done|] == st.done && r.errors[..|st.errors|] == st.errors;
      assert r.written[..|st.written|] == st.written;
    }
  }

  /** The state after the first `i` sorted paths. */
  function RunPrefix(cfg: Config, post: BatchStep, skip: set<string>, paths: seq<string>, i: nat, fixed: bool): (r: State)
    requires cfg.inputDir != [] && i <= |paths|
  {
    if i == 0 then Initial
    else Step(cfg, post, skip, paths, i - 1, RunPrefix(cfg, post, skip, paths, i - 1, fixed), fixed)
  }

  lemma RunPrefixStep(cfg: Config, post: BatchStep, skip: set<string>, paths: seq<string>, i: nat, fixed: bool)
    requires cfg.inputDir != [] && i < |paths|
    ensures RunPrefix(cfg, post, skip, paths, i + 1, fixed)
         == Step(cfg, post, skip, paths, i, RunPrefix(cfg, post, skip, paths, i, fixed), fixed)
  {
  }

  /** `b` extends the logs and written rasters of `a`, with at most `k` more
      flushed batches. */
  predicate Grown(a: State, b: State, k: nat)
  {
    && IsPrefix(a.done, b.done) && IsPrefix(a.errors, b.errors) && IsPrefix(a.written, b.written)
    && |a.flushed| <= |b.flushed| <= |a.flushed| + k
  }

  lemma GrownTrans(a: State, m: State, b: State, k: nat)
    ensures Grown(a, m, 1) && Grown(m, b, k) ==> Grown(a, b, k + 1)
  {
    if Grown(a, m, 1) && Grown(m, b, k) {
      PrefixTransitive(a.done, m.done, b.done);
      PrefixTransitive(a.errors, m.errors, b.errors);
      PrefixTransitive(a.written, m.written, b.written);
    }
  }

  lemma GrownRefl(a: State)
    ensures Grown(a, a, 0)
  {
    assert a.done[..|a.done|] == a.done && a.errors[..|a.errors|] == a.errors;
    assert a.written[..|a.written|] == a.written;
  }

  lemma RunPrefixGrowsOne(cfg: Config, post: BatchStep, skip: set<string>, paths: seq<string>, i: nat, fixed: bool)
    requires cfg.inputDir != [] && i < |paths|
    ensures Grown(RunPrefix(cfg, post, skip, paths, i, fixed), RunPrefix(cfg, post, skip, paths, i + 1, fixed), 1)
  {
    RunPrefixStep(cfg, post, skip, paths, i, fixed);
    StepLogsGrow(cfg, post, skip, paths, i, RunPrefix(cfg, post, skip, paths, i, fixed), fixed);
  }

  /** Steps that each grow the state chain into growth over the whole range. */
  lemma {:induction false} ChainGrown(f: nat -> State, i: nat, j: nat)
    requires i <= j
    requires forall k: nat :: i <= k < j ==> Grown(f(k), f(k + 1), 1)
    ensures Grown(f(i), f(j), j - i)
    decreases j - i
  {
    if i < j {
      ChainGrown(f, i + 1, j);
      GrownTrans(f(i), f(i + 1), f(j), j - (i + 1));
    } else {
      GrownRefl(f(i));
    }
  }

  /** The loop states after each prefix of the sorted paths. */
  function RunStates(cfg: Config, post: BatchStep, skip: set<string>, paths: seq<string>, fixed: bool): nat -> State
    requires cfg.inputDir != []
  {
    (k: nat) => if k <= |paths| then RunPrefix(cfg, post, skip, paths, k, fixed) else Initial
  }

  lemma RunStatesGrow(cfg: Config, post: BatchStep, skip: set<string>, paths: seq<string>, k: nat, fixed: bool)
    requires cfg.inputDir != [] && k < |paths|
    ensures var f := RunStates(cfg, post, skip, paths, fixed); Grown(f(k), f(k + 1), 1)
  {
    RunPrefixGrowsOne(cfg, post, skip, paths, k, fixed);
  }

  /** Over the run the logs and the written rasters are only appended to, and
      each path flushes at most one batch. */
  lemma RunLogsGrow(cfg: Config, post: BatchStep, skip: set<string>, paths: seq<string>, i: nat, j: nat, fixed: bool)
    requires cfg.inputDir != [] && i <= j <= |paths|
    ensures Grown(RunPrefix(cfg, post, skip, paths, i, fixed), RunPrefix(cfg, post, skip, paths, j, fixed), j - i)
  {
    var f := RunStates(cfg, post, skip, paths, fixed);
    forall k: nat | i <= k < j
      ensures Grown(f(k), f(k + 1), 1)
    {
      RunStatesGrow(cfg, post, skip, paths, k, fixed);
    }
    ChainGrown(f, i, j);
    assert f(i) == RunPrefix(cfg, post, skip, paths, i, fixed) && f(j) == RunPrefix(cfg, post, skip, paths, j, fixed);
  }

  predicate IsPrefix<T(==)>(a: seq<T>, b: seq<T>)
  {
    |a| <= |b| && b[..|a|] == a
  }

  predicate AllFull(bs: seq<seq<WorkItem>>, size: int)
  {
    forall k :: 0 <= k < |bs| ==> |bs[k]| == size
  }

  /** Batch sizes: each flushed batch holds 1 to `size` tiles and all but the
      last are full; before the last index is reached, all are full. */
  predicate Shape(st: State, size: int, beforeLast: bool)
  {
    && (forall k :: 0 <= k < |st.flushed| ==> 1 <= |st.flushed[k]| <= size)
    && (forall k :: 0 <= k < |st.flushed| - 1 ==> |st.flushed[k]| == size)
    && (beforeLast ==> AllFull(st.flushed, size))
  }

  /** The logs hold exactly the names of the flushed tiles. */
  predicate LogsMatch(st: State)
  {
    multiset(st.done + st.errors) == multiset(Names(Flatten(st.flushed)))
  }

  /** The flushed and pending tiles are the surviving paths so far, in order
      (after a raise, an initial part of them). */
  predicate Covers(st: State, todo: seq<WorkItem>, size: int)
  {
    && (st.fatal.None? ==> |st.batch| < size && Flatten(st.flushed) + st.batch == todo)
    && (st.fatal.Some? ==> 1 <= |st.batch| <= size && IsPrefix(Flatten(st.flushed) + st.batch, todo))
  }

  /** What holds after the first `i` paths. */
  predicate Inv(cfg: Config, skip: set<string>, paths: seq<string>, i: nat, st: State)
    requires cfg.inputDir != [] && i <= |paths|
  {
    Shape(st, cfg.batchSize, i < |paths|) && LogsMatch(st)
    && Covers(st, Items(cfg, Todo(paths[..i], skip)), cfg.batchSize)
  }

  /** The effect of `Flush` as far as the loop invariant is concerned. */
  predicate Flushed(st: State, r: State)
  {
    && (r.fatal.Some? ==> r == st.(fatal := r.fatal))
    && (r.fatal.None? ==>
          r.batch == [] && r.flushed == st.flushed + [st.batch]
          && multiset(r.done + r.errors) == multiset(st.done + st.errors) + multiset(Names(st.batch)))
  }

  lemma FlushIsFlushed(cfg: Config, post: BatchStep, st: State)
    requires st.fatal.None?
    ensures Flushed(st, Flush(cfg, post, st))
  {
  }

  lemma FlushKeepsInv(st: State, r: State, todo: seq<WorkItem>, size: int, beforeLast: bool)
    requires st.fatal.None? && Flushed(st, r)
    requires 1 <= |st.batch| <= size
    requires forall k :: 0 <= k < |st.flushed| ==> 1 <= |st.flushed[k]| <= size
    requires AllFull(st.flushed, size)
    requires beforeLast ==> |st.batch| == size
    requires LogsMatch(st)
    requires Flatten(st.flushed) + st.batch == todo
    ensures Shape(r, size, beforeLast) && LogsMatch(r) && Covers(r, todo, size)
  {
    if r.fatal.None? {
      FlattenSnoc(st.flushed, st.batch);
      NamesAppend(Flatten(st.flushed), st.batch);
      assert Flatten(r.flushed) + r.batch == todo;
      assert multiset(Names(Flatten(r.flushed))) == multiset(Names(Flatten(st.flushed))) + multiset(Names(st.batch));
      assert forall k :: 0 <= k < |r.flushed| ==> r.flushed[k] == if k < |st.flushed| then st.flushed[k] else st.batch;
    } else {
      assert r.flushed == st.flushed && r.batch == st.batch && r.done == st.done && r.errors == st.errors;
      assert todo[..|todo|] == todo;
    }
  }

  lemma PrefixTransitive<T>(a: seq<T>, b: seq<T>, c: seq<T>)
    requires IsPrefix(a, b) && IsPrefix(b, c)
    ensures IsPrefix(a, c)
  {
    assert c[..|a|] == c[..|b|][..|a|];
  }

  /** The loop appended `item` to the pending batch; `r` is the state after the
      iteration, flushed or not. */
  lemma AppendKeepsInv(st: State, r: State, item: WorkItem, before: seq<WorkItem>, size: int, beforeLast: bool)
    requires st.fatal.None? && size > 0
    requires Shape(st, size, true) && LogsMatch(st) && Covers(st, before, size)
    requires var st1 := st.(batch := st.batch + [item]);
      if |st1.batch| == size || !beforeLast then Flushed(st1, r) else r == st1
    ensures Shape(r, size, beforeLast) && LogsMatch(r) && Covers(r, before + [item], size)
  {
    var st1 := st.(batch := st.batch + [item]);
    assert Flatten(st1.flushed) + st1.batch == before + [item];
    if |st1.batch| == size || !beforeLast {
      FlushKeepsInv(st1, r, before + [item], size, beforeLast);
    }
  }

  /** The loop skipped a path; `r` is the state after the iteration. */
  lemma SkipKeepsInv(st: State, r: State, todo: seq<WorkItem>, size: int, beforeLast: bool, flushes: bool)
    requires st.fatal.None? && size > 0
    requires Shape(st, size, true) && LogsMatch(st) && Covers(st, todo, size)
    requires flushes ==> |st.batch| > 0 && !beforeLast && Flushed(st, r)
    requires !flushes ==> r == st
    ensures Shape(r, size, beforeLast) && LogsMatch(r) && Covers(r, todo, size)
  {
    if flushes {
      FlushKeepsInv(st, r, todo, size, false);
    }
  }

  /** The effect of one iteration, with `Flush` abstracted to `Flushed`. */
  predicate Stepped(st: State, r: State, item: WorkItem, skipped: bool, fixed: bool, isLast: bool, size: int)
  {
    if st.fatal.Some? then r == st
    else if skipped then
      if fixed && isLast && |st.batch| > 0 then Flushed(st, r) else r == st
    else
      var st1 := st.(batch := st.batch + [item]);
      if |st1.batch| == size || isLast then Flushed(st1, r) else r == st1
  }

  lemma StepIsStepped(cfg: Config, post: BatchStep, skip: set<string>, paths: seq<string>, i: nat, st: State, fixed: bool)
    requires cfg.inputDir != [] && i < |paths|
    ensures Stepped(st, Step(cfg, post, skip, paths, i, st, fixed), MakeItem(cfg, paths[i]),
                    Skipped(skip, paths[i]), fixed, i == |paths| - 1, cfg.batchSize)
  {
    if st.fatal.None? {
      if Skipped(skip, paths[i]) {
        if fixed && i == |paths| - 1 && |st.batch| > 0 { FlushIsFlushed(cfg, post, st); }
      } else {
        var st1 := st.(batch := st.batch + [MakeItem(cfg, paths[i])]);
        if |st1.batch| == cfg.batchSize || i == |paths| - 1 { FlushIsFlushed(cfg, post, st1); }
      }
    }
  }

  lemma SteppedKeepsInv(st: State, r: State, item: WorkItem, skipped: bool, fixed: bool, isLast: bool,
                        size: int, beforeLast: bool, before: seq<WorkItem>, after: seq<WorkItem>)
    requires size > 0 && beforeLast == !isLast
    requires Stepped(st, r, item, skipped, fixed, isLast, size)
    requires Shape(st, size, true) && LogsMatch(st) && Covers(st, before, size)
    requires after == before + (if skipped then [] else [item])
    ensures Shape(r, size, beforeLast) && LogsMatch(r) && Covers(r, after, size)
  {
    if st.fatal.Some? {
      PrefixTransitive(Flatten(st.flushed) + st.batch, before, after);
    } else if skipped {
      SkipKeepsInv(st, r, before, size, beforeLast, fixed && isLast && |st.batch| > 0);
    } else {
      AppendKeepsInv(st, r, item, before, size, beforeLast);
    }
  }

  lemma {:induction false} StepKeepsInv(cfg: Config, post: BatchStep, skip: set<string>, paths: seq<string>, i: nat, st: State, fixed: bool)
    requires cfg.inputDir != [] && cfg.batchSize > 0 && i < |paths|
    requires Inv(cfg, skip, paths, i, st)
    ensures Inv(cfg, skip, paths, i + 1, Step(cfg, post, skip, paths, i, st, fixed))
  {
    var item := MakeItem(cfg, paths[i]);
    var skipped := Skipped(skip, paths[i]);
    ItemsSnoc(cfg, skip, paths, i);
    StepIsStepped(cfg, post, skip, paths, i, st, fixed);
    SteppedKeepsInv(st, Step(cfg, post, skip, paths, i, st, fixed), item, skipped, fixed, i == |paths| - 1,
                    cfg.batchSize, i + 1 < |paths|, Items(cfg, Todo(paths[..i], skip)), Items(cfg, Todo(paths[..i + 1], skip)));
  }

  lemma {:induction false} RunKeepsInv(cfg: Config, post: BatchStep, skip: set<string>, paths: seq<string>, i: nat, fixed: bool)
    requires cfg.inputDir != [] && cfg.batchSize > 0 && i <= |paths|
    ensures Inv(cfg, skip, paths, i, RunPrefix(cfg, post, skip, paths, i, fixed))
  {
    if i == 0 {
      InitialInv(cfg, skip, paths);
    } else {
      var j := i - 1;
      var prev := RunPrefix(cfg, post, skip, paths, j, fixed);
      RunKeepsInv(cfg, post, skip, paths, j, fixed);
      StepKeepsInv(cfg, post, skip, paths, j, prev, fixed);
      RunPrefixStep(cfg, post, skip, paths, j, fixed);
    }
  }

  lemma InitialInv(cfg: Config, skip: set<string>, paths: seq<string>)
    requires cfg.inputDir != [] && cfg.batchSize > 0
    ensures Inv(cfg, skip, paths, 0, Initial)
  {
    assert paths[..0] == [];
    assert Items(cfg, Todo([], skip)) == [];
  }

  lemma {:induction false} FlattenFull(bs: seq<seq<WorkItem>>, size: int)
    requires AllFull(bs, size)
    ensures |Flatten(bs)| == size * |bs|
  {
    if |bs| > 0 {
      FlattenFull(bs[..|bs| - 1], size);
    }
  }

  lemma MulAtLeast(size: int, d: int)
    requires size > 0 && d >= 1
    ensures size * d >= size
  {
    assert size * d == size * (d - 1) + size;
  }

  lemma ModOfMultiplePlus(size: int, k: nat, m: int)
    requires 0 <= m < size
    ensures (size * k + m) % size == m
  {
    var a := size * k + m;
    var q := a / size;
    var r := a % size;
    assert a == size * q + r;
    assert size * (k - q) == r - m;
    if k > q {
      MulAtLeast(size, k - q);
      assert false;
    } else if k < q {
      MulAtLeast(size, q - k);
      assert false;
    }
  }

  /** How many surviving tiles are left unflushed when the loop ends: none if the
      last sorted path survived the filter, otherwise those after the last full batch. */
  function Stranded(paths: seq<string>, skip: set<string>, size: int): nat
    requires size > 0
  {
    if |paths| > 0 && Skipped(skip, paths[|paths| - 1]) then |Todo(paths, skip)| % size else 0
  }

  /** The pending batch after the last iteration, with `Flush` abstracted. */
  lemma LastStepBatch(st: State, r: State, item: WorkItem, skipped: bool, fixed: bool, size: int, before: seq<WorkItem>)
    requires size > 0 && r.fatal.None?
    requires Stepped(st, r, item, skipped, fixed, true, size)
    requires Shape(st, size, true) && Covers(st, before, size)
    ensures fixed || !skipped ==> r.batch == []
    ensures !fixed && skipped ==> |r.batch| == |before| % size
  {
    if !fixed && skipped {
      assert r == st;
      FlattenFull(st.flushed, size);
      assert |before| == size * |st.flushed| + |st.batch|;
      ModOfMultiplePlus(size, |st.flushed|, |st.batch|);
    }
  }

  lemma {:induction false} LastStepKeepsBatch(cfg: Config, post: BatchStep, skip: set<string>, paths: seq<string>, st: State, fixed: bool)
    requires cfg.inputDir != [] && cfg.batchSize > 0 && |paths| > 0
    requires Inv(cfg, skip, paths, |paths| - 1, st)
    ensures var r := Step(cfg, post, skip, paths, |paths| - 1, st, fixed);
      r.fatal.None? ==> (fixed ==> r.batch == []) && (!fixed ==> |r.batch| == Stranded(paths, skip, cfg.batchSize))
  {
    var n := |paths|;
    var r := Step(cfg, post, skip, paths, n - 1, st, fixed);
    if r.fatal.None? {
      StepIsStepped(cfg, post, skip, paths, n - 1, st, fixed);
      var before := Items(cfg, Todo(paths[..n - 1], skip));
      LastStepBatch(st, r, MakeItem(cfg, paths[n - 1]), Skipped(skip, paths[n - 1]), fixed, cfg.batchSize, before);
      StrandedByPrefix(paths, skip, cfg.batchSize);
    }
  }

  /** When the last path is skipped, the stranded count is that of the paths before it. */
  lemma StrandedByPrefix(paths: seq<string>, skip: set<string>, size: int)
    requires size > 0 && |paths| > 0
    ensures Stranded(paths, skip, size) ==
              if Skipped(skip, paths[|paths| - 1]) then |Todo(paths[..|paths| - 1], skip)| % size else 0
  {
    var n := |paths|;
    TodoSnoc(paths, skip, n - 1);
    assert paths[..n] == paths;
  }

  /** At the end of a run without a raise, the pending batch is empty in the
      corrected loop, and holds the stranded tiles in the loop as written. */
  lemma {:induction false} FinalBatch(cfg: Config, post: BatchStep, skip: set<string>, paths: seq<string>, fixed: bool)
    requires cfg.inputDir != [] && cfg.batchSize > 0
    ensures var last := RunPrefix(cfg, post, skip, paths, |paths|, fixed);
      last.fatal.None? ==> (fixed ==> last.batch == []) && (!fixed ==> |last.batch| == Stranded(paths, skip, cfg.batchSize))
  {
    var n := |paths|;
    if n > 0 {
      var prev := RunPrefix(cfg, post, skip, paths, n - 1, fixed);
      RunKeepsInv(cfg, post, skip, paths, n - 1, fixed);
      LastStepKeepsBatch(cfg, post, skip, paths, prev, fixed);
      assert RunPrefix(cfg, post, skip, paths, n, fixed) == Step(cfg, post, skip, paths, n - 1, prev, fixed);
    }
  }

  /** The loop, corrected or as written, after the checks that precede it. */
  function Run(cfg: Config, env: Env, fixed: bool): (r: Outcome)
    ensures r.InputMissing? <==> !InputExists(cfg, env)
    ensures InputExists(cfg, env) && !env.mkdirOk(OutputBase(cfg)) ==>
              r == Ran(Initial.(fatal := Some(OutputDirFailed(OutputBase(cfg)))))
    ensures InputExists(cfg, env) && env.mkdirOk(OutputBase(cfg)) && cfg.batchSize <= 0 ==>
              r == Ran(Initial.(fatal := Some(InvalidBatchSize(cfg.batchSize))))
  {
    if !InputExists(cfg, env) then InputMissing
    else if !env.mkdirOk(OutputBase(cfg)) then Ran(Initial.(fatal := Some(OutputDirFailed(OutputBase(cfg)))))
    else if cfg.batchSize <= 0 then Ran(Initial.(fatal := Some(InvalidBatchSize(cfg.batchSize))))
    else
      var paths := SortedPaths(env);
      Ran(RunPrefix(cfg, RunBatch(cfg, env), SkipSet(cfg, env), paths, |paths|, fixed))
  }

  /** The surviving tiles of a run, as work items in visiting order. */
  function Planned(cfg: Config, env: Env): seq<WorkItem>
    requires cfg.inputDir != []
  {
    Items(cfg, Todo(SortedPaths(env), SkipSet(cfg, env)))
  }

  /** The properties shared by both variants of the loop. */
  lemma RunFacts(cfg: Config, env: Env, fixed: bool)
    requires InputExists(cfg, env) && env.mkdirOk(OutputBase(cfg)) && cfg.batchSize > 0
    ensures var st := Run(cfg, env, fixed).final;
      && Shape(st, cfg.batchSize, false) && LogsMatch(st) && Covers(st, Planned(cfg, env), cfg.batchSize)
  {
    var paths := SortedPaths(env);
    RunKeepsInv(cfg, RunBatch(cfg, env), SkipSet(cfg, env), paths, |paths|, fixed);
    assert paths[..|paths|] == paths;
  }

  lemma RunEnd(cfg: Config, env: Env, fixed: bool)
    ensures var r := Run(cfg, env, fixed);
      r.Ran? && InputExists(cfg, env) && env.mkdirOk(OutputBase(cfg)) && cfg.batchSize > 0 ==>
        && Shape(r.final, cfg.batchSize, false) && LogsMatch(r.final) && Covers(r.final, Planned(cfg, env), cfg.batchSize)
        && (r.final.fatal.None? && fixed ==> r.final.batch == [])
        && (r.final.fatal.None? && !fixed ==> |r.final.batch| == Stranded(SortedPaths(env), SkipSet(cfg, env), cfg.batchSize))
  {
    if InputExists(cfg, env) && env.mkdirOk(OutputBase(cfg)) && cfg.batchSize > 0 {
      RunFacts(cfg, env, fixed);
      FinalBatch(cfg, RunBatch(cfg, env), SkipSet(cfg, env), SortedPaths(env), fixed);
    }
  }

  /** `predict_dir` as written. */
  function PredictDir(cfg: Config, env: Env): (r: Outcome)
    ensures r.InputMissing? <==> !InputExists(cfg, env)
    ensures r.Ran? && (!env.mkdirOk(OutputBase(cfg)) || cfg.batchSize <= 0) ==>
              r.final.fatal.Some? && r.final.flushed == [] && r.final.done == [] && r.final.errors == []
    ensures r.Ran? ==> forall k :: 0 <= k < |r.final.flushed| ==> 1 <= |r.final.flushed[k]| <= cfg.batchSize
    ensures r.Ran? ==> forall k :: 0 <= k < |r.final.flushed| - 1 ==> |r.final.flushed[k]| == cfg.batchSize
    ensures r.Ran? ==> multiset(r.final.done + r.final.errors) == multiset(Names(Flatten(r.final.flushed)))
    ensures r.Ran? && r.final.fatal.None? ==>
              cfg.batchSize > 0 && Flatten(r.final.flushed) + r.final.batch == Planned(cfg, env)
    ensures r.Ran? && r.final.fatal.None? ==>
              cfg.batchSize > 0 && |r.final.batch| == Stranded(SortedPaths(env), SkipSet(cfg, env), cfg.batchSize)
    ensures r.Ran? && r.final.fatal.Some? && cfg.batchSize > 0 ==>
              IsPrefix(Flatten(r.final.flushed) + r.final.batch, Planned(cfg, env))
  {
    RunEnd(cfg, env, false);
    Run(cfg, env, false)
  }

  /** `predict_dir` with the end-of-list check made for skipped paths too: a run
      that does not raise postprocesses and logs every surviving tile. */
  function PredictDirFixed(cfg: Config, env: Env): (r: Outcome)
    ensures r.InputMissing? <==> !InputExists(cfg, env)
    ensures r.Ran? && (!env.mkdirOk(OutputBase(cfg)) || cfg.batchSize <= 0) ==>
              r.final.fatal.Some? && r.final.flushed == [] && r.final.done == [] && r.final.errors == []
    ensures r.Ran? ==> forall k :: 0 <= k < |r.final.flushed| ==> 1 <= |r.final.flushed[k]| <= cfg.batchSize
    ensures r.Ran? ==> multiset(r.final.done + r.final.errors) == multiset(Names(Flatten(r.final.flushed)))
    ensures r.Ran? && r.final.fatal.None? ==>
              r.final.batch == [] && Flatten(r.final.flushed) == Planned(cfg, env)
    ensures r.Ran? && r.final.fatal.None? ==>
              multiset(r.final.done + r.final.errors) == multiset(Names(Planned(cfg, env)))
  {
    RunEnd(cfg, env, true);
    Run(cfg, env, true)
  }
}

=== FILE: props.dfy ===
/** Properties of `predict_dir` that relate several of its parts: where a tile's
    raster lands, when it is written, and what a second run over the same
    directory does with the logs of the first. */
module PredictProps {
  import opened Base
  import opened PyStr
  import Ordering
  import opened Paths
  import opened Clean
  import opened Save
  import opened Reader
  import opened Tiles
  import opened Predict

  /** In evaluation mode every tile's output directory is `output_base_dir + "_eval"`,
      and the prediction path the loop derives is the one `save_prediction_uint8` writes. */
  lemma EvalModeFlattens(cfg: Config, p: string)
    requires cfg.evaluateMode && cfg.inputDir != []
    ensures MakeItem(cfg, p).outputDir == cfg.outputBaseDir + "_eval"
    ensures MakeItem(cfg, p).predPath == OutputPath(MakeItem(cfg, p).outputDir, p)
  {
    var base := OutputBase(cfg);
    var name := Split(SplitExt(p).0).1;
    assert |base| > 0 && base[|base| - 1] == 'l';
    StemOfBasename(p);
    EvalItem(cfg, p);
    JoinedPredPath(base, name);
  }

  /** Some pixel outside the ignored border has a confidence of at least one half. */
  predicate Confident(p: Prediction, border: Option<int>)
    requires p.channels == 1
  {
    exists i, j :: 0 <= i < p.height && 0 <= j < p.width && !InBorder(border, p.height, p.width, i, j)
                   && p.values[i][j][0] >= 0.5
  }

  /** The cleaned mask reaches the save threshold exactly where the prediction is confident. */
  lemma MaskSignalIffConfident(p: Prediction, border: Option<int>)
    requires p.channels == 1 && p.dtype == Float32
    ensures var mask := CleanPrediction(p, border).value;
      (exists i, j :: 0 <= i < |mask| && 0 <= j < |mask[i]| && mask[i][j] >= Threshold) <==> Confident(p, border)
  {
    var mask := CleanPrediction(p, border).value;
    if Confident(p, border) {
      var i, j :| 0 <= i < p.height && 0 <= j < p.width && !InBorder(border, p.height, p.width, i, j)
                  && p.values[i][j][0] >= 0.5;
      assert mask[i][j] >= Threshold;
    } else {
      forall i, j | 0 <= i < |mask| && 0 <= j < |mask[i]| ensures mask[i][j] < Threshold {
        assert mask[i][j] == if InBorder(border, p.height, p.width, i, j) then 0 else Quantize(p.values[i][j][0]);
      }
    }
  }

  /** When the prediction is single-channel float32 and every collaborator
      succeeds, the tile is logged as done, and a raster is written exactly when
      some pixel outside the border has a confidence of at least 0.5. */
  lemma WrittenIffConfident(cfg: Config, env: Env, it: WorkItem, raster: Raster, p: Prediction)
    requires p.channels == 1 && p.dtype == Float32
    requires raster.transform.Some? && raster.transform.value.a != 0.0
    requires env.mkdirOk(it.outputDir) && env.writeOk(OutputPath(it.outputDir, it.inputPath))
    requires cfg.evaluateMode ==> env.evalOk(it.inputPath)
    ensures PostprocessTile(cfg, env, it, raster, Some(p)).Success?
    ensures PostprocessTile(cfg, env, it, raster, Some(p)).value.Some? <==> Confident(p, cfg.border)
  {
    var c := CleanPrediction(p, cfg.border);
    assert c.Success?;
    var saved := SavePrediction(it.inputPath, c.value, raster.transform, it.outputDir, true, true);
    MaskSignalIffConfident(p, cfg.border);
    assert saved.Success?;
    assert PostprocessTile(cfg, env, it, raster, Some(p)) == Success(saved.value);
  }

  /** In evaluation mode, a confident tile whose evaluation step raises after
      the save goes to the error log, and the raster it wrote is still counted. */
  lemma EvalFailureKeepsRaster(cfg: Config, env: Env, it: WorkItem, raster: Raster, p: Prediction)
    requires p.channels == 1 && p.dtype == Float32 && Confident(p, cfg.border)
    requires raster.transform.Some? && raster.transform.value.a != 0.0
    requires env.mkdirOk(it.outputDir) && env.writeOk(OutputPath(it.outputDir, it.inputPath))
    requires cfg.evaluateMode && !env.evalOk(it.inputPath)
    ensures var v := PostprocessTile(cfg, env, it, raster, Some(p));
      && v == Failure(EvaluationFailed(Some(OutputPath(it.outputDir, it.inputPath))))
      && ErrorNames([it], [v]) == [LogName(it)] && DoneNames([it], [v]) == []
      && WrittenPaths([v]) == [OutputPath(it.outputDir, it.inputPath)]
  {
    var c := CleanPrediction(p, cfg.border);
    assert c.Success?;
    MaskSignalIffConfident(p, cfg.border);
    var saved := SavePrediction(it.inputPath, c.value, raster.transform, it.outputDir, true, true);
    assert saved == Success(Some(OutputPath(it.outputDir, it.inputPath)));
  }

  /** The resume filter: with `force` unset, a found path is processed exactly
      when its file name is on no line of either log, line ends stripped. */
  lemma SkipIffLogged(cfg: Config, env: Env, p: string)
    ensures p in Todo(SortedPaths(env), SkipSet(cfg, env)) <==>
              && p in env.tifPaths + env.jpgPaths
              && (cfg.force || (Basename(p) !in LogNames(env.doneLogLines) && Basename(p) !in LogNames(env.errorLogLines)))
  {
    assert p in SortedPaths(env) <==> p in multiset(env.tifPaths + env.jpgPaths);
  }

  /** Appending an element no smaller than any other keeps a sequence sorted. */
  lemma SortedSnoc(t: seq<string>, x: string)
    requires Ordering.Sorted(t)
    requires forall i :: 0 <= i < |t| ==> Ordering.LexLe(t[i], x)
    ensures Ordering.Sorted(t + [x])
  {
    var u := t + [x];
    forall i, j | 0 <= i < j < |u| ensures Ordering.LexLe(u[i], u[j]) {
      if j < |t| {
        assert u[i] == t[i] && u[j] == t[j];
      } else {
        assert u[i] == t[i] && u[j] == x;
      }
    }
  }

  lemma SortedFront(paths: seq<string>, front: seq<string>)
    requires Ordering.Sorted(paths) && |paths| > 0 && front == paths[..|paths| - 1]
    ensures Ordering.Sorted(front)
    ensures forall q :: q in front ==> Ordering.LexLe(q, paths[|paths| - 1])
  {
    forall i, j | 0 <= i < j < |front| ensures Ordering.LexLe(front[i], front[j]) {
      assert front[i] == paths[i] && front[j] == paths[j];
    }
    forall q | q in front ensures Ordering.LexLe(q, paths[|paths| - 1]) {
      var k :| 0 <= k < |front| && front[k] == q;
      assert paths[k] == q;
    }
  }

  lemma {:induction false} TodoKeepsOrder(paths: seq<string>, skip: set<string>)
    requires Ordering.Sorted(paths)
    ensures Ordering.Sorted(Todo(paths, skip))
  {
    if |paths| > 0 {
      var n := |paths|;
      var front := paths[..n - 1];
      var last := paths[n - 1];
      SortedFront(paths, front);
      TodoKeepsOrder(front, skip);
      var t := Todo(front, skip);
      assert Todo(paths, skip) == t + (if Skipped(skip, last) then [] else [last]);
      if !Skipped(skip, last) {
        forall i | 0 <= i < |t| ensures Ordering.LexLe(t[i], last) {
          assert t[i] in front;
        }
        SortedSnoc(t, last);
      }
    }
  }

  /** The surviving tiles are visited in Python's sorted order of their paths. */
  lemma VisitedInSortedOrder(cfg: Config, env: Env)
    ensures Ordering.Sorted(Todo(SortedPaths(env), SkipSet(cfg, env)))
  {
    TodoKeepsOrder(SortedPaths(env), SkipSet(cfg, env));
  }

  /** The lines a run appends to a log: each name followed by a newline. */
  function LogLines(names: seq<string>): (r: seq<string>)
    ensures |r| == |names|
    ensures forall j :: 0 <= j < |names| ==> r[j] == names[j] + "\n"
  {
    seq(|names|, j requires 0 <= j < |names| => names[j] + "\n")
  }

  /** The outside world as a second run finds it: the same files, with the two
      logs extended by what the first run appended. */
  function AfterRun(env: Env, st: State): (r: Env)
    ensures r.tifPaths == env.tifPaths && r.jpgPaths == env.jpgPaths
    ensures r.doneLogLines == env.doneLogLines + LogLines(st.done)
    ensures r.errorLogLines == env.errorLogLines + LogLines(st.errors)
  {
    env.(doneLogLines := env.doneLogLines + LogLines(st.done),
         errorLogLines := env.errorLogLines + LogLines(st.errors))
  }

  /** What the two globs can return: paths ending in `.tif` or `.jpg` whose
      names hold no line break. */
  predicate GlobShaped(env: Env)
  {
    && (forall p :: p in env.tifPaths ==> EndsWith(p, ".tif") && '\n' !in p && '\r' !in p)
    && (forall p :: p in env.jpgPaths ==> EndsWith(p, ".jpg") && '\n' !in p && '\r' !in p)
  }

  /** A file name that ends in a letter reads back from its log line unchanged. */
  lemma NameSurvivesLog(p: string)
    requires |p| > 0 && p[|p| - 1] in "fg"
    ensures RStrip(Basename(p) + "\n") == Basename(p)
  {
    var b := Basename(p);
    assert |b| > 0 && b[|b| - 1] == p[|p| - 1];
    RStripLine(b);
  }

  /** The logs of a state name only tiles from an initial part of `planned`. */
  lemma LoggedNamesArePlanned(st: State, planned: seq<WorkItem>)
    requires LogsMatch(st) && IsPrefix(Flatten(st.flushed), planned)
    ensures forall n :: n in st.done + st.errors ==> exists j :: 0 <= j < |planned| && n == LogName(planned[j])
  {
    var flat := Flatten(st.flushed);
    forall n | n in st.done + st.errors ensures exists j :: 0 <= j < |planned| && n == LogName(planned[j]) {
      assert n in multiset(st.done + st.errors);
      assert n in multiset(Names(flat));
      var j :| 0 <= j < |Names(flat)| && Names(flat)[j] == n;
      assert flat[j] == planned[..|flat|][j];
    }
  }

  /** The tiles a run plans are found paths that the resume filter let through. */
  lemma PlannedAreFound(cfg: Config, env: Env)
    requires cfg.inputDir != []
    ensures forall j :: 0 <= j < |Planned(cfg, env)| ==>
              Planned(cfg, env)[j].inputPath in env.tifPaths + env.jpgPaths
              && !Skipped(SkipSet(cfg, env), Planned(cfg, env)[j].inputPath)
  {
    var todo := Todo(SortedPaths(env), SkipSet(cfg, env));
    forall j | 0 <= j < |Planned(cfg, env)|
      ensures Planned(cfg, env)[j].inputPath in env.tifPaths + env.jpgPaths
      ensures !Skipped(SkipSet(cfg, env), Planned(cfg, env)[j].inputPath)
    {
      assert Planned(cfg, env)[j].inputPath == todo[j];
      assert todo[j] in SortedPaths(env);
      assert todo[j] in multiset(env.tifPaths + env.jpgPaths);
    }
  }

  /** Whatever the outcome, a run has logged exactly the tiles of an initial part of its plan. */
  lemma RunLogsPlanned(cfg: Config, env: Env, fixed: bool)
    requires InputExists(cfg, env)
    ensures Run(cfg, env, fixed).Ran?
    ensures LogsMatch(Run(cfg, env, fixed).final)
    ensures IsPrefix(Flatten(Run(cfg, env, fixed).final.flushed), Planned(cfg, env))
  {
    var st := Run(cfg, env, fixed).final;
    if env.mkdirOk(OutputBase(cfg)) && cfg.batchSize > 0 {
      RunEnd(cfg, env, fixed);
      FlushedArePrefix(st, Planned(cfg, env), cfg.batchSize);
    }
  }

  /** Whether or not the run raised, the flushed batches are an initial part of the plan. */
  lemma FlushedArePrefix(st: State, planned: seq<WorkItem>, size: int)
    requires Covers(st, planned, size)
    ensures IsPrefix(Flatten(st.flushed), planned)
  {
    var flat := Flatten(st.flushed);
    if st.fatal.None? {
      assert planned[..|flat|] == (flat + st.batch)[..|flat|];
    } else {
      assert planned[..|flat|] == planned[..|flat + st.batch|][..|flat|];
      assert (flat + st.batch)[..|flat|] == flat;
    }
  }

  /** Every name a run logs is the file name of a path the globs found. */
  lemma LoggedAreFound(cfg: Config, env: Env, fixed: bool)
    requires InputExists(cfg, env)
    ensures Run(cfg, env, fixed).Ran?
    ensures forall n :: n in Run(cfg, env, fixed).final.done + Run(cfg, env, fixed).final.errors ==>
              exists q :: q in env.tifPaths + env.jpgPaths && n == Basename(q)
  {
    RunLogsPlanned(cfg, env, fixed);
    var st := Run(cfg, env, fixed).final;
    var planned := Planned(cfg, env);
    LoggedNamesArePlanned(st, planned);
    PlannedAreFound(cfg, env);
    forall n | n in st.done + st.errors ensures exists q :: q in env.tifPaths + env.jpgPaths && n == Basename(q) {
      var j :| 0 <= j < |planned| && n == LogName(planned[j]);
      assert planned[j].inputPath in env.tifPaths + env.jpgPaths;
    }
  }

  lemma InLogNames(lines: seq<string>, k: nat)
    requires k < |lines|
    ensures RStrip(lines[k]) in LogNames(lines)
  {
  }

  /** A name logged as `n + "\n"` is read back as `n` on the next run. */
  lemma LoggedNameReadBack(prior: seq<string>, names: seq<string>, n: string)
    requires n in names
    requires RStrip(n + "\n") == n
    ensures n in LogNames(prior + LogLines(names))
  {
    var j :| 0 <= j < |names| && names[j] == n;
    var lines := prior + LogLines(names);
    assert lines[|prior| + j] == n + "\n";
    InLogNames(lines, |prior| + j);
  }

  /** Extending the logs never un-skips a path. */
  lemma SkipSetGrows(cfg: Config, env: Env, st: State)
    ensures SkipSet(cfg, env) <= SkipSet(cfg, AfterRun(env, st))
  {
    var env2 := AfterRun(env, st);
    forall x | x in LogNames(env.doneLogLines) ensures x in LogNames(env2.doneLogLines) {
      var i :| 0 <= i < |env.doneLogLines| && RStrip(env.doneLogLines[i]) == x;
      InLogNames(env2.doneLogLines, i);
    }
    forall x | x in LogNames(env.errorLogLines) ensures x in LogNames(env2.errorLogLines) {
      var i :| 0 <= i < |env.errorLogLines| && RStrip(env.errorLogLines[i]) == x;
      InLogNames(env2.errorLogLines, i);
    }
  }

  lemma FoundEndsInLetter(env: Env, q: string)
    requires GlobShaped(env) && q in env.tifPaths + env.jpgPaths
    ensures |q| > 0 && q[|q| - 1] in "fg"
  {
    if q in env.tifPaths {
      assert q[|q| - 4..][3] == 'f';
    } else {
      assert q[|q| - 4..][3] == 'g';
    }
  }

  /** Names of found files that a state logged are skipped once its lines are appended. */
  lemma LoggedFoundAreSkipped(cfg: Config, env: Env, st: State)
    requires GlobShaped(env) && !cfg.force
    requires forall n :: n in st.done + st.errors ==> exists q :: q in env.tifPaths + env.jpgPaths && n == Basename(q)
    ensures forall n :: n in st.done + st.errors ==> n in SkipSet(cfg, AfterRun(env, st))
  {
    forall n | n in st.done + st.errors ensures n in SkipSet(cfg, AfterRun(env, st)) {
      var q :| q in env.tifPaths + env.jpgPaths && n == Basename(q);
      FoundEndsInLetter(env, q);
      NameSurvivesLog(q);
      if n in st.done {
        LoggedNameReadBack(env.doneLogLines, st.done, n);
      } else {
        LoggedNameReadBack(env.errorLogLines, st.errors, n);
      }
    }
  }

  /** Every tile a run logged, as done or as failed, is skipped by the next run
      without `force`; whatever was skipped before still is. */
  lemma RerunSkipsLogged(cfg: Config, env: Env, fixed: bool)
    requires InputExists(cfg, env) && GlobShaped(env) && !cfg.force
    ensures Run(cfg, env, fixed).Ran?
    ensures var st := Run(cfg, env, fixed).final;
      && SkipSet(cfg, env) <= SkipSet(cfg, AfterRun(env, st))
      && forall n :: n in st.done + st.errors ==> n in SkipSet(cfg, AfterRun(env, st))
  {
    LoggedAreFound(cfg, env, fixed);
    SkipSetGrows(cfg, env, Run(cfg, env, fixed).final);
    LoggedFoundAreSkipped(cfg, env, Run(cfg, env, fixed).final);
  }

  /** A fold over paths that are all skipped never leaves the initial state. */
  lemma {:induction false} AllSkippedStaysInitial(cfg: Config, post: BatchStep, skip: set<string>, paths: seq<string>, i: nat, fixed: bool)
    requires cfg.inputDir != [] && i <= |paths|
    requires forall k :: 0 <= k < |paths| ==> Skipped(skip, paths[k])
    ensures RunPrefix(cfg, post, skip, paths, i, fixed) == Initial
  {
    if i > 0 {
      AllSkippedStaysInitial(cfg, post, skip, paths, i - 1, fixed);
      assert Skipped(skip, paths[i - 1]);
    }
  }

  /** When a state has logged every planned tile, each sorted path was either
      skipped already or has its name in this run's logs. */
  lemma PlanFullyLogged(cfg: Config, env: Env, st: State)
    requires cfg.inputDir != []
    requires LogsMatch(st) && Flatten(st.flushed) == Planned(cfg, env)
    ensures forall p :: p in SortedPaths(env) ==> Skipped(SkipSet(cfg, env), p) || Basename(p) in st.done + st.errors
  {
    var todo := Todo(SortedPaths(env), SkipSet(cfg, env));
    var planned := Planned(cfg, env);
    forall p | p in SortedPaths(env) && !Skipped(SkipSet(cfg, env), p) ensures Basename(p) in st.done + st.errors {
      assert p in todo;
      var j :| 0 <= j < |todo| && todo[j] == p;
      assert planned[j].inputPath == p;
      var names := Names(planned);
      assert names[j] == Basename(p);
      assert Basename(p) in multiset(names);
      assert multiset(names) == multiset(st.done + st.errors);
    }
  }

  /** After a corrected run that does not raise, running again without `force`
      over the same files finds nothing to do and changes nothing. */
  lemma FixedRerunIsNoOp(cfg: Config, env: Env)
    requires InputExists(cfg, env) && GlobShaped(env) && !cfg.force
    requires PredictDirFixed(cfg, env).final.fatal.None?
    ensures PredictDirFixed(cfg, AfterRun(env, PredictDirFixed(cfg, env).final)) == Ran(Initial)
  {
    var st := PredictDirFixed(cfg, env).final;
    var env2 := AfterRun(env, st);
    var paths := SortedPaths(env);
    assert SortedPaths(env2) == paths;
    PlanFullyLogged(cfg, env, st);
    RerunSkipsLogged(cfg, env, true);
    forall k | 0 <= k < |paths| ensures Skipped(SkipSet(cfg, env2), paths[k]) {
      assert paths[k] in paths;
    }
    AllSkippedStaysInitial(cfg, RunBatch(cfg, env2), SkipSet(cfg, env2), paths, |paths|, true);
  }

  /** A state that has only queued `n` tiles: nothing flushed, logged or written. */
  predicate OnlyQueued(st: State, n: nat)
  {
    st.fatal.None? && st.flushed == [] && st.done == [] && st.errors == [] && st.written == [] && |st.batch| == n
  }

  /** An iteration that neither fills the batch nor reaches an unskipped last
      path only queues. */
  lemma QueueOnly(cfg: Config, post: BatchStep, skip: set<string>, paths: seq<string>, i: nat, st: State, n: nat)
    requires cfg.inputDir != [] && i < |paths| && OnlyQueued(st, n)
    requires !Skipped(skip, paths[i]) ==> i != |paths| - 1 && n + 1 < cfg.batchSize
    ensures OnlyQueued(Step(cfg, post, skip, paths, i, st, false), n + (if Skipped(skip, paths[i]) then 0 else 1))
  {
  }

  /** One iteration of such a fold keeps it only queueing. */
  lemma QueueStepKeeps(cfg: Config, post: BatchStep, skip: set<string>, paths: seq<string>, i: nat, st: State)
    requires cfg.inputDir != [] && i < |paths|
    requires |Todo(paths, skip)| < cfg.batchSize && Skipped(skip, paths[|paths| - 1])
    requires OnlyQueued(st, |Todo(paths[..i], skip)|)
    ensures OnlyQueued(Step(cfg, post, skip, paths, i, st, false), |Todo(paths[..i + 1], skip)|)
  {
    QueueRoom(paths, skip, i, cfg.batchSize);
    QueueOnly(cfg, post, skip, paths, i, st, |Todo(paths[..i], skip)|);
  }

  /** While the survivors never fill a batch, a queued path leaves room in it,
      and it is never the last path. */
  lemma QueueRoom(paths: seq<string>, skip: set<string>, i: nat, size: int)
    requires i < |paths| && |Todo(paths, skip)| < size && Skipped(skip, paths[|paths| - 1])
    ensures !Skipped(skip, paths[i]) ==> i != |paths| - 1 && |Todo(paths[..i], skip)| + 1 < size
    ensures |Todo(paths[..i + 1], skip)| == |Todo(paths[..i], skip)| + (if Skipped(skip, paths[i]) then 0 else 1)
  {
    TodoLenStep(paths, skip, i + 1);
  }

  /** A fold whose surviving paths never fill a batch, and whose last path is
      skipped, only queues: nothing is flushed, logged or written. */
  lemma {:induction false} NoFlushFold(cfg: Config, post: BatchStep, skip: set<string>, paths: seq<string>, i: nat)
    requires cfg.inputDir != [] && i <= |paths|
    requires |Todo(paths, skip)| < cfg.batchSize
    requires |paths| > 0 ==> Skipped(skip, paths[|paths| - 1])
    ensures OnlyQueued(RunPrefix(cfg, post, skip, paths, i, false), |Todo(paths[..i], skip)|)
  {
    if i == 0 {
      assert paths[..0] == [];
      assert RunPrefix(cfg, post, skip, paths, 0, false) == Initial;
    } else {
      var j := i - 1;
      var prev := RunPrefix(cfg, post, skip, paths, j, false);
      NoFlushFold(cfg, post, skip, paths, j);
      QueueStepKeeps(cfg, post, skip, paths, j, prev);
      RunPrefixStep(cfg, post, skip, paths, j, false);
    }
  }

  /** How the number of survivors grows with the prefix. */
  lemma TodoLenStep(paths: seq<string>, skip: set<string>, i: nat)
    requires 0 < i <= |paths|
    ensures |Todo(paths[..i], skip)| == |Todo(paths[..i - 1], skip)| + (if Skipped(skip, paths[i - 1]) then 0 else 1)
    ensures |Todo(paths[..i], skip)| <= |Todo(paths, skip)|
    ensures !Skipped(skip, paths[i - 1]) ==> |Todo(paths[..i - 1], skip)| + 1 <= |Todo(paths, skip)|
  {
    TodoSnoc(paths, skip, i - 1);
    TodoPrefixLen(paths, skip, i);
  }

  /** Splitting a list of items at a point splits the paths they come from. */
  lemma SplitItems(cfg: Config, todo: seq<string>, flat: seq<WorkItem>, batch: seq<WorkItem>)
    requires cfg.inputDir != [] && flat + batch == Items(cfg, todo)
    ensures |flat| <= |todo|
    ensures Items(cfg, todo[..|flat|]) == flat && Items(cfg, todo[|flat|..]) == batch
  {
    var n := |flat|;
    assert |todo| == |Items(cfg, todo)| == n + |batch|;
    var front, back := todo[..n], todo[n..];
    TakeDrop(todo, n);
    ItemsAppend(cfg, front, back);
    SplitEq(flat, batch, Items(cfg, front), Items(cfg, back));
  }

  lemma SplitEq<T>(a: seq<T>, b: seq<T>, c: seq<T>, d: seq<T>)
    requires a + b == c + d && |a| == |c|
    ensures a == c && b == d
  {
    assert a == (a + b)[..|a|] && c == (c + d)[..|c|];
    assert b == (a + b)[|a|..] && d == (c + d)[|c|..];
  }

  /** Paths whose tiles a state has logged are all skipped by a skip set that
      holds every logged name. */
  lemma LoggedPrefixSkipped(cfg: Config, front: seq<string>, st: State, skip: set<string>)
    requires cfg.inputDir != [] && Items(cfg, front) == Flatten(st.flushed) && LogsMatch(st)
    requires forall n :: n in st.done + st.errors ==> n in skip
    ensures Todo(front, skip) == []
  {
    var flat := Flatten(st.flushed);
    forall k | 0 <= k < |front| ensures Skipped(skip, front[k]) {
      assert Names(flat)[k] == Basename(front[k]);
      assert Names(flat)[k] in multiset(st.done + st.errors);
    }
    AllSkippedTodoEmpty(front, skip);
  }

  lemma {:induction false} AllSkippedTodoEmpty(paths: seq<string>, skip: set<string>)
    requires forall k :: 0 <= k < |paths| ==> Skipped(skip, paths[k])
    ensures Todo(paths, skip) == []
  {
    if |paths| > 0 {
      AllSkippedTodoEmpty(paths[..|paths| - 1], skip);
      TodoLast(paths, skip);
    }
  }

  /** The paths a rerun lets through are those of the first run's pending
      batch that the extended skip set does not name. */
  lemma SurvivorsArePending(cfg: Config, paths: seq<string>, skip1: set<string>, skip2: set<string>, st: State)
    requires cfg.inputDir != [] && skip1 <= skip2
    requires LogsMatch(st) && Flatten(st.flushed) + st.batch == Items(cfg, Todo(paths, skip1))
    requires forall n :: n in st.done + st.errors ==> n in skip2
    ensures var todo := Todo(paths, skip1);
      && |Flatten(st.flushed)| <= |todo|
      && Items(cfg, todo[|Flatten(st.flushed)|..]) == st.batch
      && Todo(paths, skip2) == Todo(todo[|Flatten(st.flushed)|..], skip2)
  {
    var todo := Todo(paths, skip1);
    var flat := Flatten(st.flushed);
    SplitItems(cfg, todo, flat, st.batch);
    var front, back := todo[..|flat|], todo[|flat|..];
    LoggedPrefixSkipped(cfg, front, st, skip2);
    TakeDrop(todo, |flat|);
    TodoTwice(paths, skip1, skip2);
    TodoAppend(front, back, skip2);
    assert Todo(front, skip2) + Todo(back, skip2) == Todo(back, skip2);
  }

  lemma TakeDrop<T>(s: seq<T>, n: nat)
    requires n <= |s|
    ensures s[..n] + s[n..] == s
  {
  }

  /** After a run as written that did not raise, the paths a rerun lets through
      come from the first run's pending batch, are fewer than a batch, and do
      not include the last sorted path. */
  lemma RerunPlan(cfg: Config, env: Env)
    requires InputExists(cfg, env) && GlobShaped(env) && !cfg.force
    requires PredictDir(cfg, env).final.fatal.None?
    ensures var st := PredictDir(cfg, env).final;
      var paths := SortedPaths(env);
      var todo2 := Todo(paths, SkipSet(cfg, AfterRun(env, st)));
      && cfg.batchSize > 0 && |todo2| < cfg.batchSize
      && (|paths| > 0 ==> Skipped(SkipSet(cfg, AfterRun(env, st)), paths[|paths| - 1]))
      && (forall p :: p in todo2 ==> MakeItem(cfg, p) in st.batch)
  {
    var st := PredictDir(cfg, env).final;
    var paths := SortedPaths(env);
    var skip1, skip2 := SkipSet(cfg, env), SkipSet(cfg, AfterRun(env, st));
    RerunSkipsLogged(cfg, env, false);
    var todo := Todo(paths, skip1);
    var flat := Flatten(st.flushed);
    SurvivorsArePending(cfg, paths, skip1, skip2, st);
    var back := todo[|flat|..];
    var todo2 := Todo(paths, skip2);
    assert todo2 == Todo(back, skip2);
    assert |todo2| <= |back| == |st.batch|;
    forall p | p in todo2 ensures MakeItem(cfg, p) in st.batch {
      assert p in back;
      var m :| 0 <= m < |back| && back[m] == p;
      assert Items(cfg, back)[m] == MakeItem(cfg, p);
    }
  }

  /** A run as written whose survivors never fill a batch, and whose last
      sorted path is skipped, only queues them. */
  lemma QueueOnlyRun(cfg: Config, env: Env)
    requires InputExists(cfg, env) && env.mkdirOk(OutputBase(cfg)) && cfg.batchSize > 0
    requires |Todo(SortedPaths(env), SkipSet(cfg, env))| < cfg.batchSize
    requires |SortedPaths(env)| > 0 ==> Skipped(SkipSet(cfg, env), SortedPaths(env)[|SortedPaths(env)| - 1])
    ensures var r := PredictDir(cfg, env);
      r.Ran? && OnlyQueued(r.final, |r.final.batch|) && r.final.batch == Planned(cfg, env)
  {
    QueueOnlyPrefix(cfg, RunBatch(cfg, env), SkipSet(cfg, env), SortedPaths(env));
    assert Flatten([]) == [];
  }

  /** The whole-list case of `NoFlushFold`. */
  lemma QueueOnlyPrefix(cfg: Config, post: BatchStep, skip: set<string>, paths: seq<string>)
    requires cfg.inputDir != [] && |Todo(paths, skip)| < cfg.batchSize
    requires |paths| > 0 ==> Skipped(skip, paths[|paths| - 1])
    ensures OnlyQueued(RunPrefix(cfg, post, skip, paths, |paths|, false), |Todo(paths, skip)|)
  {
    NoFlushFold(cfg, post, skip, paths, |paths|);
    assert paths[..|paths|] == paths;
  }

  lemma PendingItems(cfg: Config, todo: seq<string>, pending: seq<WorkItem>)
    requires cfg.inputDir != []
    requires forall p :: p in todo ==> MakeItem(cfg, p) in pending
    ensures forall it :: it in Items(cfg, todo) ==> it in pending
  {
    forall it | it in Items(cfg, todo) ensures it in pending {
      var j :| 0 <= j < |todo| && Items(cfg, todo)[j] == it;
      assert todo[j] in todo;
    }
  }

  /** As written, running again after a run that did not raise only queues the
      stranded tiles once more: both logs stay as they are, no raster is
      written, and every tile left pending was left pending by the first run.
      So each rerun strands the same tiles again. */
  lemma RerunStrandedStaysPending(cfg: Config, env: Env)
    requires InputExists(cfg, env) && GlobShaped(env) && !cfg.force
    requires PredictDir(cfg, env).final.fatal.None?
    ensures var st := PredictDir(cfg, env).final;
      var r := PredictDir(cfg, AfterRun(env, st));
      && r.Ran? && r.final.fatal.None? && r.final.flushed == []
      && r.final.done == [] && r.final.errors == [] && r.final.written == []
      && |r.final.batch| < cfg.batchSize
      && forall it :: it in r.final.batch ==> it in st.batch
  {
    var st := PredictDir(cfg, env).final;
    var env2 := AfterRun(env, st);
    assert SortedPaths(env2) == SortedPaths(env);
    RerunPlan(cfg, env);
    QueueOnlyRun(cfg, env2);
    PendingItems(cfg, Todo(SortedPaths(env), SkipSet(cfg, env2)), st.batch);
  }

  /** As written, a run that does not raise logs every planned tile except the
      stranded ones; the corrected loop logs all of them. */
  lemma LoggedCount(cfg: Config, env: Env)
    requires InputExists(cfg, env)
    ensures var r := PredictDir(cfg, env).final;
      r.fatal.None? ==>
        |r.done| + |r.errors| + Stranded(SortedPaths(env), SkipSet(cfg, env), cfg.batchSize) == |Planned(cfg, env)|
    ensures var r := PredictDirFixed(cfg, env).final;
      r.fatal.None? ==> |r.done| + |r.errors| == |Planned(cfg, env)|
  {
    var r := PredictDir(cfg, env).final;
    if r.fatal.None? {
      assert |multiset(r.done + r.errors)| == |multiset(Names(Flatten(r.flushed)))|;
      assert |Flatten(r.flushed) + r.batch| == |Planned(cfg, env)|;
    }
    var f := PredictDirFixed(cfg, env).final;
    if f.fatal.None? {
      assert |multiset(f.done + f.errors)| == |multiset(Names(Flatten(f.flushed)))|;
    }
  }

  /** A directory with no matching tiles: the run ends without a raise, having
      queued, logged and written nothing. */
  lemma NoTilesNoWork(cfg: Config, env: Env, fixed: bool)
    requires InputExists(cfg, env) && env.mkdirOk(OutputBase(cfg)) && cfg.batchSize > 0
    requires env.tifPaths == [] && env.jpgPaths == []
    ensures Run(cfg, env, fixed) == Ran(Initial)
  {
    assert |multiset(SortedPaths(env))| == 0;
  }

  /** When the last sorted path survives the resume filter (always so under
      `force`), the loop as written logs every surviving tile once. */
  lemma AllLoggedWhenLastSurvives(cfg: Config, env: Env)
    requires InputExists(cfg, env)
    requires |SortedPaths(env)| > 0 ==> !Skipped(SkipSet(cfg, env), SortedPaths(env)[|SortedPaths(env)| - 1])
    ensures var r := PredictDir(cfg, env).final;
      r.fatal.None? ==> r.batch == [] && multiset(r.done + r.errors) == multiset(Names(Planned(cfg, env)))
  {
    var r := PredictDir(cfg, env).final;
    if r.fatal.None? {
      assert |r.batch| == 0;
      assert Flatten(r.flushed) + r.batch == Flatten(r.flushed);
    }
  }

  /** The fold over two paths, batches of two, the second one skipped: the first
      tile is queued, and only the corrected loop flushes it. */
  lemma TwoPathFold(cfg: Config, post: BatchStep, skip: set<string>, p: string, q: string, fixed: bool)
    requires cfg.inputDir != [] && cfg.batchSize == 2
    requires !Skipped(skip, p) && Skipped(skip, q)
    ensures var st1 := State([MakeItem(cfg, p)], [], [], [], [], None);
      && (!fixed ==> RunPrefix(cfg, post, skip, [p, q], 2, fixed) == st1)
      && (fixed ==> RunPrefix(cfg, post, skip, [p, q], 2, fixed) == Flush(cfg, post, st1))
  {
    var st1 := State([MakeItem(cfg, p)], [], [], [], [], None);
    StepIsStepped(cfg, post, skip, [p, q], 0, Initial, fixed);
    assert RunPrefix(cfg, post, skip, [p, q], 1, fixed) == st1;
  }

  /** As written: the run ends without a raise, one tile still pending, and
      nothing logged. */
  lemma StrandedTile(cfg: Config, env: Env, p: string, q: string)
    requires InputExists(cfg, env) && env.mkdirOk(OutputBase(cfg)) && cfg.batchSize == 2
    requires SortedPaths(env) == [p, q]
    requires !Skipped(SkipSet(cfg, env), p) && Skipped(SkipSet(cfg, env), q)
    ensures var r := PredictDir(cfg, env).final;
      r.fatal.None? && |r.batch| == 1 && r.done == [] && r.errors == []
  {
    TwoPathFold(cfg, RunBatch(cfg, env), SkipSet(cfg, env), p, q, false);
    assert Run(cfg, env, false) == Ran(RunPrefix(cfg, RunBatch(cfg, env), SkipSet(cfg, env), [p, q], 2, false));
  }

  /** A batch of one tile whose read succeeds at once and for which the model
      returns no prediction: the tile's verdict is a missing prediction. */
  lemma MissingPredictionVerdict(cfg: Config, env: Env, it: WorkItem, raster: Raster)
    requires env.attempts(it.inputPath) == [AttemptOk(raster)] && raster.crs.Some?
    requires env.infer([raster.data]) == Some([])
    ensures BatchVerdicts(cfg, env, [it]) == Success([Failure(MissingPrediction)])
  {
    assert Succeeds(env.attempts(it.inputPath), 0);
    assert ReadTile(cfg, env, it) == Success(raster);
    var read := ReadAll(cfg, env, [it]);
    assert read.Success? && |read.value| == 1 && read.value[0] == raster;
    assert read.value == [raster];
    assert Images(read.value) == [raster.data];
    var vs := Verdicts(cfg, env, [it], read.value, []);
    assert vs[0] == Failure(MissingPrediction);
    assert vs == [Failure(MissingPrediction)];
    assert env.infer(Images(read.value)) == Some([]);
  }

  /** Everything postprocessing one tile needs to succeed without writing: a
      valid transform, a single-channel float32 prediction that is nowhere
      confident, and a working output directory, write and evaluation step. */
  predicate BlankTile(cfg: Config, env: Env, it: WorkItem, raster: Raster, pred: Prediction)
  {
    && raster.transform.Some? && raster.transform.value.a != 0.0
    && pred.channels == 1 && pred.dtype == Float32 && !Confident(pred, cfg.border)
    && env.mkdirOk(it.outputDir) && env.writeOk(OutputPath(it.outputDir, it.inputPath))
    && (cfg.evaluateMode ==> env.evalOk(it.inputPath))
  }

  /** A blank tile's postprocessing succeeds and writes nothing. */
  lemma BlankTileVerdict(cfg: Config, env: Env, it: WorkItem, raster: Raster, pred: Prediction)
    requires BlankTile(cfg, env, it, raster, pred)
    ensures PostprocessTile(cfg, env, it, raster, Some(pred)) == Success(None)
  {
    WrittenIffConfident(cfg, env, it, raster, pred);
  }

  /** When the whole batch is read, the model answers, and every tile has a
      blank prediction, every tile is logged as done, none as an error, and no
      raster is written. */
  lemma AllBlankPredictionsDone(cfg: Config, env: Env, batch: seq<WorkItem>)
    requires ReadAll(cfg, env, batch).Success?
    requires env.infer(Images(ReadAll(cfg, env, batch).value)).Some?
    requires var rasters := ReadAll(cfg, env, batch).value;
      var preds := env.infer(Images(rasters)).value;
      forall j :: 0 <= j < |batch| ==> j < |preds| && BlankTile(cfg, env, batch[j], rasters[j], preds[j])
    ensures var r := BatchVerdicts(cfg, env, batch);
      && r.Success?
      && DoneNames(batch, r.value) == Names(batch)
      && ErrorNames(batch, r.value) == []
      && WrittenPaths(r.value) == []
  {
    var rasters := ReadAll(cfg, env, batch).value;
    var preds := env.infer(Images(rasters)).value;
    var r := BatchVerdicts(cfg, env, batch);
    assert r == Success(Verdicts(cfg, env, batch, rasters, preds));
    var vs := r.value;
    forall j | 0 <= j < |vs|
      ensures vs[j] == Success(None)
    {
      assert PredictionFor(preds, j) == Some(preds[j]);
      BlankTileVerdict(cfg, env, batch[j], rasters[j], preds[j]);
    }
    AllBlankTilesAreDone(batch, vs);
  }

  /** A batch of one tile whose read succeeds at once and for which the model
      returns a blank prediction: the tile succeeds and no raster is written. */
  lemma BlankPredictionVerdict(cfg: Config, env: Env, it: WorkItem, raster: Raster, pred: Prediction)
    requires env.attempts(it.inputPath) == [AttemptOk(raster)] && raster.crs.Some?
    requires env.infer([raster.data]) == Some([pred])
    requires BlankTile(cfg, env, it, raster, pred)
    ensures BatchVerdicts(cfg, env, [it]) == Success([Success(None)])
  {
    assert Succeeds(env.attempts(it.inputPath), 0);
    assert ReadTile(cfg, env, it) == Success(raster);
    var read := ReadAll(cfg, env, [it]);
    assert read.Success? && |read.value| == 1 && read.value[0] == raster;
    assert read.value == [raster];
    assert Images(read.value) == [raster.data];
    assert env.infer(Images(read.value)) == Some([pred]);
    var v := PostprocessTile(cfg, env, it, raster, Some(pred));
    BlankTileVerdict(cfg, env, it, raster, pred);
    var vs := Verdicts(cfg, env, [it], read.value, [pred]);
    assert vs[0] == v;
    assert vs == [Success(None)];
  }

  /** A flush whose batch step yields a single blank success logs that tile as
      done, nothing as an error, and writes nothing. */
  lemma FlushOneBlank(cfg: Config, post: BatchStep, it: WorkItem)
    requires post([it]) == Success([Success(None)])
    ensures var f := Flush(cfg, post, State([it], [], [], [], [], None));
      f.fatal.None? && f.done == [LogName(it)] && f.errors == [] && f.written == []
  {
    var vs: seq<Verdict> := [Success(None)];
    assert DoneNames([it], vs) == [LogName(it)];
    assert ErrorNames([it], vs) == [];
    assert WrittenPaths(vs) == [];
  }

  /** Corrected: the first tile is flushed at the last index, so the run ends
      with exactly one flush of the batch holding it. */
  lemma StrandedTileFixed(cfg: Config, env: Env, p: string, q: string)
    requires InputExists(cfg, env) && env.mkdirOk(OutputBase(cfg)) && cfg.batchSize == 2
    requires SortedPaths(env) == [p, q]
    requires !Skipped(SkipSet(cfg, env), p) && Skipped(SkipSet(cfg, env), q)
    ensures PredictDirFixed(cfg, env).final == Flush(cfg, RunBatch(cfg, env), State([MakeItem(cfg, p)], [], [], [], [], None))
  {
    TwoPathFold(cfg, RunBatch(cfg, env), SkipSet(cfg, env), p, q, true);
    assert Run(cfg, env, true) == Ran(RunPrefix(cfg, RunBatch(cfg, env), SkipSet(cfg, env), [p, q], 2, true));
  }

  /** `str.replace` swaps every occurrence of the input directory's name, not
      only the leading one: with input directory `d` and output directory `o`,
      the tile `d/dd/a.tif` is predicted into `o/oo`, not into `o/dd`. */
  lemma EveryOccurrenceReplaced()
    ensures MakeItem(ExampleConfig(), "d/dd/a.tif").predPath == "o/oo/a" + "_pred.tif"
    ensures MakeItem(ExampleConfig(), "d/dd/a.tif").outputDir == "o/oo"
  {
    NestedStem();
    NestedReplace();
    NestedSplit();
    NormalItemFrom(ExampleConfig(), "d/dd/a.tif", "d/dd/a", "o/oo/a", "o/oo");
  }

  lemma NormalItemFrom(cfg: Config, p: string, noext: string, replaced: string, dir: string)
    requires cfg.inputDir != [] && !cfg.evaluateMode
    requires SplitExt(p).0 == noext && ReplaceAll(noext, cfg.inputDir, cfg.outputBaseDir) == replaced
    requires Split(replaced + "_pred.tif").0 == dir
    ensures MakeItem(cfg, p).predPath == replaced + "_pred.tif" && MakeItem(cfg, p).outputDir == dir
  {
  }

  lemma NestedSplit()
    ensures Split("o/oo/a" + "_pred.tif").0 == "o/oo"
  {
    PredPathSplits("o", "oo", "a");
    assert "o" + [Sep] + ("oo" + [Sep] + "a") + "_pred.tif" == "o/oo/a" + "_pred.tif";
  }

  lemma NestedStem()
    ensures SplitExt("d/dd/a.tif").0 == "d/dd/a"
  {
    var p := "d/dd/a.tif";
    LastIndexOfUnique(p, Sep, 4);
    LastIndexOfUnique(p, '.', 6);
    assert p[5] != '.';
    assert p[..6] == "d/dd/a";
  }

  lemma NestedReplace()
    ensures ReplaceAll("d/dd/a", "d", "o") == "o/oo/a"
  {
    var s := "d/dd/a";
    assert ReplaceFrom(s, "d", "o", 5) == "a" by { assert s[5..] == "a"; }
    assert ReplaceFrom(s, "d", "o", 4) == "/a" by { assert !OccursAt(s, "d", 4); }
    assert ReplaceFrom(s, "d", "o", 3) == "o/a" by { assert s[3..4] == "d"; }
    assert ReplaceFrom(s, "d", "o", 2) == "oo/a" by { assert s[2..3] == "d"; }
    assert ReplaceFrom(s, "d", "o", 1) == "/oo/a" by { assert !OccursAt(s, "d", 1); }
    assert ReplaceFrom(s, "d", "o", 0) == "o/oo/a" by { assert s[0..1] == "d"; }
  }

  /** Two tiles `d/a.tif` and `d/b.tif`, batches of two, and `b.tif` already
      in the done log. */
  function ExampleConfig(): Config
  {
    Config("d", "o", None, None, 2, false, false)
  }

  /** A raster with a north-up transform and no pixels. */
  function ExampleRaster(): Raster
  {
    Raster(Some("EPSG:31370"), Some(Affine(1.0, 0.0, 0.0, 0.0, -1.0, 0.0)), Tensor(0, 0, 1, Float32, []))
  }

  /** Tiles `d/a.tif` and `d/b.tif`, `b.tif` already done; every read succeeds
      and the model returns one prediction with no pixel, so nothing is confident. */
  function ExampleEnv(): Env
  {
    Env(true, ["d/a.tif", "d/b.tif"], [], ["b.tif\n"], [],
        (p: string) => [AttemptOk(ExampleRaster())],
        (images: seq<Tensor>) => Some([Tensor(0, 0, 1, Float32, [])]),
        (d: string) => true, (p: string) => true, (p: string) => true)
  }

  lemma ExampleBasenames()
    ensures Basename("d/a.tif") == "a.tif" && Basename("d/b.tif") == "b.tif"
  {
    LastIndexOfUnique("d/a.tif", Sep, 1);
    LastIndexOfUnique("d/b.tif", Sep, 1);
  }

  lemma ExampleSorted()
    ensures SortedPaths(ExampleEnv()) == ["d/a.tif", "d/b.tif"]
  {
    var a, b := "d/a.tif", "d/b.tif";
    assert !Ordering.LexLe(b, a) by {
      assert b[0] == a[0] && b[1] == a[1] && b[2] > a[2];
      assert b[1..][1..] == b[2..] && a[1..][1..] == a[2..];
    }
    assert ExampleEnv().tifPaths + ExampleEnv().jpgPaths == [a, b];
    assert Ordering.Sort([a]) == [a];
    assert [a, b][..1] == [a];
    assert Ordering.Sort([a, b]) == Ordering.Insert(b, Ordering.Sort([a]));
    assert Ordering.Insert(b, [a]) == [a, b];
  }

  lemma ExampleSkip()
    ensures SkipSet(ExampleConfig(), ExampleEnv()) == {"b.tif"}
  {
    assert "b.tif\n" == "b.tif" + "\n";
    RStripLine("b.tif");
    InLogNames(["b.tif\n"], 0);
  }

  /** As written, `a.tif` is queued but never flushed: the run ends without a
      raise and without logging it, so every later run queues it again. The
      corrected loop flushes it at the last index and logs it. */
  lemma StrandedTileExample()
    ensures var r := PredictDir(ExampleConfig(), ExampleEnv()).final;
      r.fatal.None? && |r.batch| == 1 && r.done == [] && r.errors == []
    ensures var f := PredictDirFixed(ExampleConfig(), ExampleEnv()).final;
      f.fatal.None? && f.done == ["a.tif"] && f.errors == [] && f.written == []
  {
    ExampleAsWritten();
    ExampleCorrected();
  }

  lemma ExampleAsWritten()
    ensures var r := PredictDir(ExampleConfig(), ExampleEnv()).final;
      r.fatal.None? && |r.batch| == 1 && r.done == [] && r.errors == []
  {
    ExampleBasenames();
    ExampleSorted();
    ExampleSkip();
    StrandedTile(ExampleConfig(), ExampleEnv(), "d/a.tif", "d/b.tif");
  }

  lemma ExampleCorrected()
    ensures var f := PredictDirFixed(ExampleConfig(), ExampleEnv()).final;
      f.fatal.None? && f.done == ["a.tif"] && f.errors == [] && f.written == []
  {
    ExampleBasenames();
    ExampleSorted();
    ExampleSkip();
    StrandedTileFixed(ExampleConfig(), ExampleEnv(), "d/a.tif", "d/b.tif");
    ExampleBlankFlush();
  }

  lemma ExampleBlankFlush()
    ensures var f := Flush(ExampleConfig(), RunBatch(ExampleConfig(), ExampleEnv()),
                           State([MakeItem(ExampleConfig(), "d/a.tif")], [], [], [], [], None));
      f.fatal.None? && f.done == ["a.tif"] && f.errors == [] && f.written == []
  {
    var blank: Prediction := Tensor(0, 0, 1, Float32, []);
    BlankFlush(ExampleConfig(), ExampleEnv(), "d/a.tif", ExampleRaster(), blank);
    ExampleBasenames();
  }

  /** Flushing a one-tile batch whose prediction is blank logs the tile as done. */
  lemma BlankFlush(cfg: Config, env: Env, p: string, raster: Raster, pred: Prediction)
    requires cfg.inputDir != []
    requires env.attempts(p) == [AttemptOk(raster)] && raster.crs.Some?
    requires env.infer([raster.data]) == Some([pred])
    requires BlankTile(cfg, env, MakeItem(cfg, p), raster, pred)
    ensures var f := Flush(cfg, RunBatch(cfg, env), State([MakeItem(cfg, p)], [], [], [], [], None));
      f.fatal.None? && f.done == [Basename(p)] && f.errors == [] && f.written == []
  {
    var it := MakeItem(cfg, p);
    BlankPredictionVerdict(cfg, env, it, raster, pred);
    FlushOneBlank(cfg, RunBatch(cfg, env), it);
  }
}

=== FILE: pystr.dfy ===
/** The few Python `str` operations the prediction loop relies on. */
module PyStr {

  /** The last index below `n` holding `c`, or -1. */
  function LastIndexBelow(s: string, c: char, n: nat): (r: int)
    requires n <= |s|
    ensures -1 <= r < n
    ensures r >= 0 ==> s[r] == c
    ensures forall k :: r < k < n ==> s[k] != c
  {
    if n == 0 then -1
    else if s[n - 1] == c then n - 1
    else LastIndexBelow(s, c, n - 1)
  }

  /** Python's `s.rfind(c)` for a single character: the last index of `c`, or -1. */
  function LastIndexOf(s: string, c: char): (r: int)
    ensures -1 <= r < |s|
    ensures r >= 0 ==> s[r] == c
    ensures forall k :: r < k < |s| ==> s[k] != c
  {
    LastIndexBelow(s, c, |s|)
  }

  /** The last index of `c` is determined by the two facts that characterise it. */
  lemma LastIndexOfUnique(s: string, c: char, i: int)
    requires -1 <= i < |s|
    requires i >= 0 ==> s[i] == c
    requires forall k :: i < k < |s| ==> s[k] != c
    ensures LastIndexOf(s, c) == i
  {
  }

  /** Python's `str.isspace` for one character (the Unicode White_Space property). */
  predicate IsSpace(c: char)
  {
    var n := c as int;
    9 <= n <= 13 || 28 <= n <= 32 || n == 0x85 || n == 0xA0 || n == 0x1680
    || 0x2000 <= n <= 0x200A || n == 0x2028 || n == 0x2029 || n == 0x202F
    || n == 0x205F || n == 0x3000
  }

  /** Removes the longest suffix made only of characters satisfying `drop`. */
  function TrimRight(s: string, drop: char -> bool): (r: string)
    ensures |r| <= |s| && r == s[..|r|]
    ensures forall k :: |r| <= k < |s| ==> drop(s[k])
    ensures |r| > 0 ==> !drop(r[|r| - 1])
  {
    if |s| > 0 && drop(s[|s| - 1]) then TrimRight(s[..|s| - 1], drop) else s
  }

  /** Python's `s.rstrip()` with no argument. */
  function RStrip(s: string): (r: string)
    ensures |r| <= |s| && r == s[..|r|]
    ensures forall k :: |r| <= k < |s| ==> IsSpace(s[k])
    ensures |r| > 0 ==> !IsSpace(r[|r| - 1])
  {
    TrimRight(s, IsSpace)
  }

  /** A log line written as `name + "\n"` reads back as `name` when `name` has no trailing blank. */
  lemma {:induction false} RStripLine(name: string)
    requires |name| > 0 ==> !IsSpace(name[|name| - 1])
    ensures RStrip(name + "\n") == name
  {
    var s := name + "\n";
    assert s[..|s| - 1] == name;
  }

  lemma ConcatAssoc(a: string, b: string, c: string)
    ensures (a + b) + c == a + (b + c)
  {
  }

  predicate EndsWith(s: string, suffix: string)
  {
    |suffix| <= |s| && s[|s| - |suffix|..] == suffix
  }

  /** `pat` occurs in `s` starting at index `k`. */
  predicate OccursAt(s: string, pat: string, k: int)
  {
    0 <= k && k + |pat| <= |s| && s[k..k + |pat|] == pat
  }

  /** The scan of `s.replace(pat, rep)` from index `i` on: an occurrence starting
      at `i` is rewritten and the scan resumes after it; otherwise `s[i]` is kept. */
  function ReplaceFrom(s: string, pat: string, rep: string, i: nat): (r: string)
    requires |pat| > 0 && i <= |s|
    ensures rep == pat ==> r == s[i..]
    decreases |s| - i
  {
    if i + |pat| > |s| then s[i..]
    else if OccursAt(s, pat, i) then rep + ReplaceFrom(s, pat, rep, i + |pat|)
    else [s[i]] + ReplaceFrom(s, pat, rep, i + 1)
  }

  /** Python's `s.replace(pat, rep)` for a non-empty `pat`: every non-overlapping
      occurrence, scanned from the left, is rewritten. */
  function ReplaceAll(s: string, pat: string, rep: string): (r: string)
    requires |pat| > 0
    ensures (forall k :: !OccursAt(s, pat, k)) ==> r == s
    ensures rep == pat ==> r == s
  {
    assert s[0..] == s;
    assert (forall k :: !OccursAt(s, pat, k)) ==> ReplaceFrom(s, pat, rep, 0) == s by {
      if forall k :: !OccursAt(s, pat, k) {
        NoOccurrenceKept(s, pat, rep, 0);
      }
    }
    ReplaceFrom(s, pat, rep, 0)
  }

  /** A scan that meets no occurrence copies the rest of the string. */
  lemma {:induction false} NoOccurrenceKept(s: string, pat: string, rep: string, i: nat)
    requires |pat| > 0 && i <= |s|
    requires forall k :: i <= k ==> !OccursAt(s, pat, k)
    ensures ReplaceFrom(s, pat, rep, i) == s[i..]
    decreases |s| - i
  {
    if i + |pat| <= |s| {
      assert !OccursAt(s, pat, i);
      NoOccurrenceKept(s, pat, rep, i + 1);
      assert [s[i]] + s[i + 1..] == s[i..];
    }
  }

  /** The leftmost occurrence of `pat` in `s` at or after `i` starts at `k`. */
  predicate FirstOccurrenceFrom(s: string, pat: string, i: nat, k: nat)
  {
    i <= k && OccursAt(s, pat, k) && forall j :: i <= j < k ==> !OccursAt(s, pat, j)
  }

  /** The scan copies everything before the first occurrence, replaces it, and
      resumes after it. */
  lemma {:induction false} ReplaceFromFirst(s: string, pat: string, rep: string, i: nat, k: nat)
    requires |pat| > 0 && i <= |s| && FirstOccurrenceFrom(s, pat, i, k)
    ensures ReplaceFrom(s, pat, rep, i) == s[i..k] + rep + ReplaceFrom(s, pat, rep, k + |pat|)
    decreases k - i
  {
    if i == k {
      assert s[i..k] == [];
    } else {
      var tail := ReplaceFrom(s, pat, rep, k + |pat|);
      assert ReplaceFrom(s, pat, rep, i) == [s[i]] + ReplaceFrom(s, pat, rep, i + 1) by {
        assert i + |pat| <= |s| && !OccursAt(s, pat, i);
      }
      assert ReplaceFrom(s, pat, rep, i + 1) == s[i + 1..k] + rep + tail by {
        assert FirstOccurrenceFrom(s, pat, i + 1, k);
        ReplaceFromFirst(s, pat, rep, i + 1, k);
      }
      ConsSlice(s, i, k);
      ConsAppend(s[i], s[i + 1..k], rep, tail, s[i..k]);
    }
  }

  /** Python's `s.replace` on a string whose first occurrence of `pat` starts
      at `k`: the text before it is kept, the occurrence becomes `rep`, and the
      scan resumes right after it. */
  lemma ReplaceFirst(s: string, pat: string, rep: string, k: nat)
    requires |pat| > 0 && FirstOccurrenceFrom(s, pat, 0, k)
    ensures ReplaceAll(s, pat, rep) == s[..k] + rep + ReplaceFrom(s, pat, rep, k + |pat|)
  {
    ReplaceFromFirst(s, pat, rep, 0, k);
    assert s[0..k] == s[..k];
  }

  lemma ConsSlice(s: string, i: nat, k: nat)
    requires i < k <= |s|
    ensures [s[i]] + s[i + 1..k] == s[i..k]
  {
  }

  lemma ConsAppend(c: char, head: string, rep: string, tail: string, front: string)
    requires [c] + head == front
    ensures [c] + (head + rep + tail) == front + rep + tail
  {
  }

  /** An occurrence in a prefix is an occurrence in the whole string. */
  lemma OccursInPrefix(s: string, pat: string, m: nat, k: int)
    requires m <= |s|
    ensures OccursAt(s[..m], pat, k) ==> OccursAt(s, pat, k)
  {
    if OccursAt(s[..m], pat, k) {
      assert s[..m][k..k + |pat|] == s[k..k + |pat|];
    }
  }
}

=== FILE: reader.dfy ===
/** `read_image`: up to three read attempts, then the projection fallback. The
    outcome of each attempt (the raster library's work) is supplied by the caller. */
module Reader {
  import opened Base
  import opened Clean
  import opened Save

  /** The read is given up after this many failed attempts. */
  const MaxAttempts: nat := 3

  /** What one successful read yields: the CRS (`None` when the file has none),
      the geo-transform and the normalised pixels. */
  datatype Raster = Raster(crs: Option<string>, transform: Option<Affine>, data: Tensor)

  /** The outcome of one attempt; attempts beyond the listed ones fail. */
  datatype Attempt = AttemptFailed | AttemptOk(raster: Raster)

  datatype ReadError =
    | ReadFailed(path: string, tries: nat)   // every attempt raised
    | MissingProjection(path: string)        // no CRS in the file and no fallback given

  predicate Succeeds(attempts: seq<Attempt>, k: nat)
  {
    k < |attempts| && attempts[k].AttemptOk?
  }

  /** The retry loop entered with `retries` failures counted so far; fails with the final count. */
  function Retry(attempts: seq<Attempt>, retries: nat): (r: Result<Raster, nat>)
    requires retries < MaxAttempts
    ensures r.Failure? <==> forall k :: retries <= k < MaxAttempts ==> !Succeeds(attempts, k)
    ensures r.Failure? ==> r.error == MaxAttempts
    ensures r.Success? ==>
              exists k :: retries <= k < MaxAttempts && Succeeds(attempts, k) && attempts[k].raster == r.value
                          && forall j :: retries <= j < k ==> !Succeeds(attempts, j)
    decreases MaxAttempts - retries
  {
    if Succeeds(attempts, retries) then Success(attempts[retries].raster)
    else if retries + 1 >= MaxAttempts then Failure(retries + 1)
    else Retry(attempts, retries + 1)
  }

  /** `read_image(image_filepath, projection_if_missing)`. */
  function ReadImage(path: string, projectionIfMissing: Option<string>, attempts: seq<Attempt>): (r: Result<Raster, ReadError>)
    ensures (forall k :: 0 <= k < MaxAttempts ==> !Succeeds(attempts, k)) ==> r == Failure(ReadFailed(path, MaxAttempts))
    ensures forall k :: 0 <= k < MaxAttempts && Succeeds(attempts, k) && (forall j :: 0 <= j < k ==> !Succeeds(attempts, j)) ==>
              var got := attempts[k].raster;
              r == if got.crs.Some? then Success(got)
                   else if projectionIfMissing.Some? then Success(got.(crs := projectionIfMissing))
                   else Failure(MissingProjection(path))
  {
    match Retry(attempts, 0)
    case Failure(tries) => Failure(ReadFailed(path, tries))
    case Success(got) =>
      if got.crs.Some? then Success(got)
      else if projectionIfMissing.Some? then Success(got.(crs := projectionIfMissing))
      else Failure(MissingProjection(path))
  }

  /** Whatever the oracle would have said about a fourth or later attempt is never consulted. */
  lemma AtMostThreeAttempts(path: string, projectionIfMissing: Option<string>, attempts: seq<Attempt>)
    ensures ReadImage(path, projectionIfMissing, attempts)
         == ReadImage(path, projectionIfMissing, attempts[..Min(MaxAttempts, |attempts|)])
  {
    var cut := attempts[..Min(MaxAttempts, |attempts|)];
    assert forall k :: 0 <= k < MaxAttempts ==> (Succeeds(attempts, k) <==> Succeeds(cut, k));
  }

  /** Two failed reads followed by a good one with a CRS yield that raster unchanged. */
  lemma TwoFailuresThenSuccess(path: string, projectionIfMissing: Option<string>, got: Raster)
    requires got.crs.Some?
    ensures ReadImage(path, projectionIfMissing, [AttemptFailed, AttemptFailed, AttemptOk(got)]) == Success(got)
  {
    var attempts := [AttemptFailed, AttemptFailed, AttemptOk(got)];
    assert Succeeds(attempts, 2);
  }
}

=== FILE: save.dfy ===
/** The decision part of `save_prediction_uint8`: validate the geo-transform,
    name the output raster, and skip masks with nothing detected. */
module Save {
  import opened Base
  import opened PyStr
  import opened Paths

  /** A pixel at or above this value counts as detected. */
  const Threshold: int := 125

  /** An affine geo-transform; `a` (index 0) is the pixel width. */
  datatype Affine = Affine(a: real, b: real, c: real, d: real, e: real, f: real)

  datatype SaveError =
    | NoTransform(imagePath: string)   // transform missing or with a zero pixel width
    | MkdirFailed(dir: string)         // the output directory could not be created
    | WriteFailed(path: string)        // the raster writer raised

  /** Some pixel of row `row` reaches the threshold. */
  function RowHasSignal(row: seq<int>): (b: bool)
    ensures b <==> exists c :: 0 <= c < |row| && row[c] >= Threshold
  {
    if |row| == 0 then false
    else row[|row| - 1] >= Threshold || RowHasSignal(row[..|row| - 1])
  }

  /** `np.any(mask >= 125)` */
  function HasSignal(m: seq<seq<int>>): (b: bool)
    ensures b <==> exists r, c :: 0 <= r < |m| && 0 <= c < |m[r]| && m[r][c] >= Threshold
  {
    if |m| == 0 then false
    else
      var last := m[|m| - 1];
      var b := RowHasSignal(last) || HasSignal(m[..|m| - 1]);
      assert b ==> exists r, c :: 0 <= r < |m| && 0 <= c < |m[r]| && m[r][c] >= Threshold by {
        if RowHasSignal(last) {
          var c :| 0 <= c < |last| && last[c] >= Threshold;
          assert m[|m| - 1][c] >= Threshold;
        } else if b {
          var r, c :| 0 <= r < |m| - 1 && 0 <= c < |m[..|m| - 1][r]| && m[..|m| - 1][r][c] >= Threshold;
          assert m[r][c] >= Threshold;
        }
      }
      assert (exists r, c :: 0 <= r < |m| && 0 <= c < |m[r]| && m[r][c] >= Threshold) ==> b by {
        if exists r, c :: 0 <= r < |m| && 0 <= c < |m[r]| && m[r][c] >= Threshold {
          var r, c :| 0 <= r < |m| && 0 <= c < |m[r]| && m[r][c] >= Threshold;
          if r < |m| - 1 {
            assert m[..|m| - 1][r][c] >= Threshold;
          } else {
            assert last[c] >= Threshold;
          }
        }
      }
      b
  }

  /** The suffix of every prediction file name holds no separator. */
  lemma PredSuffixHasNoSep()
    ensures Sep !in "_pred.tif"
  {
    var s := "_pred.tif";
    assert forall k :: 0 <= k < |s| ==> s[k] != Sep;
  }

  /** `f"{output_dir}{os.sep}{stem}_pred.tif"` for the image file's stem. */
  function OutputPath(outputDir: string, imagePath: string): (r: string)
    ensures Basename(r) == Stem(Basename(imagePath)) + "_pred.tif"
    ensures |outputDir| < |r| && r[..|outputDir| + 1] == outputDir + [Sep]
    ensures |r| == |outputDir| + 1 + |Stem(Basename(imagePath))| + |"_pred.tif"|
  {
    var name := Stem(Basename(imagePath)) + "_pred.tif";
    assert Sep !in name;
    BasenameOfSuffix(outputDir + [Sep], name);
    outputDir + [Sep] + name
  }

  /** A prediction path built by joining a stem onto a directory splits back into
      that directory and the stem's prediction file name. */
  lemma JoinedPredPath(dir: string, stem: string)
    requires |dir| > 0 && dir[|dir| - 1] != Sep && Sep !in stem
    ensures Join(dir, stem) + "_pred.tif" == dir + [Sep] + (stem + "_pred.tif")
    ensures Split(Join(dir, stem) + "_pred.tif") == (dir, stem + "_pred.tif")
  {
    var suffix := "_pred.tif";
    var tail := stem + suffix;
    PredSuffixHasNoSep();
    assert Sep !in tail;
    JoinName(dir, stem);
    ConcatAssoc(dir + [Sep], stem, suffix);
    SplitJoined(dir, tail);
  }

  /** `save_prediction_uint8`: `Success(None)` when nothing reaches the threshold,
      `Success(Some(path))` for a written raster. `mkdirOk` and `writeOk` are the
      outcomes of creating the output directory and of the raster write. */
  function SavePrediction(imagePath: string, mask: seq<seq<int>>, transform: Option<Affine>,
                          outputDir: string, mkdirOk: bool, writeOk: bool): (r: Result<Option<string>, SaveError>)
    ensures transform.None? || transform.value.a == 0.0 ==> r == Failure(NoTransform(imagePath))
    ensures r.Success? ==> transform.Some? && transform.value.a != 0.0 && mkdirOk
    ensures transform.Some? && transform.value.a != 0.0 && mkdirOk ==>
              (r == Success(None) <==> !exists i, j :: 0 <= i < |mask| && 0 <= j < |mask[i]| && mask[i][j] >= Threshold)
    ensures r.Success? && r.value.Some? ==>
              writeOk && r.value.value == OutputPath(outputDir, imagePath)
              && Basename(r.value.value) == Stem(Basename(imagePath)) + "_pred.tif"
    ensures transform.Some? && transform.value.a != 0.0 && !mkdirOk ==> r == Failure(MkdirFailed(outputDir))
    ensures transform.Some? && transform.value.a != 0.0 && mkdirOk
            && (exists i, j :: 0 <= i < |mask| && 0 <= j < |mask[i]| && mask[i][j] >= Threshold) ==>
              r == (if writeOk then Success(Some(OutputPath(outputDir, imagePath)))
                    else Failure(WriteFailed(OutputPath(outputDir, imagePath))))
  {
    if transform.None? || transform.value.a == 0.0 then Failure(NoTransform(imagePath))
    else if !mkdirOk then Failure(MkdirFailed(outputDir))
    else
      var path := OutputPath(outputDir, imagePath);
      if !HasSignal(mask) then Success(None)
      else if !writeOk then Failure(WriteFailed(path))
      else Success(Some(path))
  }
}

=== FILE: tiles.dfy ===
/** The per-tile and per-batch work of `predict_dir`: deriving a tile's output
    names, reading a batch, running the model on it, and postprocessing each
    tile inside its own error handler. */
module Tiles {
  import opened Base
  import opened PyStr
  import opened Paths
  import opened Clean
  import opened Save
  import opened Reader

  /** The arguments of `predict_dir` that the loop depends on. */
  datatype Config = Config(
    inputDir: string,
    outputBaseDir: string,
    border: Option<int>,
    projectionIfMissing: Option<string>,
    batchSize: int,
    evaluateMode: bool,
    force: bool)

  /** Everything the loop learns from the outside world: whether the input
      directory exists, what the two globs return, the existing log lines, the
      outcome of every read attempt, the model, and whether directory creation,
      raster writes and the evaluation step succeed. `doneLogLines` and
      `errorLogLines` are the lines of the files at
      `Predict.LogPath(cfg, DoneLogName)` and `Predict.LogPath(cfg, ErrorLogName)`
      when the run starts, and are empty when a file does not exist. */
  datatype Env = Env(
    inputDirExists: bool,
    tifPaths: seq<string>,
    jpgPaths: seq<string>,
    doneLogLines: seq<string>,
    errorLogLines: seq<string>,
    attempts: string -> seq<Attempt>,
    infer: seq<Tensor> -> Option<seq<Prediction>>,
    mkdirOk: string -> bool,
    writeOk: string -> bool,
    evalOk: string -> bool)

  /** One queued tile: its input path, the derived prediction path and output directory. */
  datatype WorkItem = WorkItem(inputPath: string, predPath: string, outputDir: string)

  /** Why postprocessing one tile raised; the tile then goes to the error log. */
  datatype TileError =
    | MissingPrediction          // the model returned fewer predictions than tiles
    | CleanFailed(clean: CleanError)
    | SaveFailed(save: SaveError)
    | EvaluationFailed(saved: Option<string>)  // the raster the save step wrote before the raise

  /** `Success(None)`: blank prediction; `Success(Some(p))`: raster written to `p`. */
  type Verdict = Result<Option<string>, TileError>

  /** The raster a tile left on disk, whether it was then logged as done or,
      because the evaluation step raised after the save, as an error. */
  function WrittenBy(v: Verdict): Option<string>
  {
    match v
    case Success(saved) => saved
    case Failure(EvaluationFailed(saved)) => saved
    case Failure(_) => None
  }

  /** Why the whole run raised. */
  datatype Fatal =
    | OutputDirFailed(dir: string)
    | InvalidBatchSize(size: int)
    | ReadFatal(read: ReadError)
    | InferenceFailed

  /** In evaluation mode every output goes to one directory with an `_eval` suffix.
      The ensures only restate the body: they are a closed form for the solver,
      which the path derivations below need to stay within their budget. */
  function OutputBase(cfg: Config): (r: string)
    ensures cfg.evaluateMode ==> r == cfg.outputBaseDir + "_eval"
    ensures !cfg.evaluateMode ==> r == cfg.outputBaseDir
  {
    if cfg.evaluateMode then cfg.outputBaseDir + "_eval" else cfg.outputBaseDir
  }

  /** The prediction path and output directory of the tile at `p`. */
  function MakeItem(cfg: Config, p: string): (it: WorkItem)
    requires cfg.inputDir != []
    ensures it.inputPath == p
    ensures EndsWith(it.predPath, "_pred.tif")
    ensures !cfg.evaluateMode ==> it.predPath == ReplaceAll(SplitExt(p).0, cfg.inputDir, cfg.outputBaseDir) + "_pred.tif"
    ensures it.outputDir == Split(it.predPath).0
  {
    var pred := PredPath(cfg, p);
    WorkItem(p, pred, Split(pred).0)
  }

  /** `output_pred_filepath`: in evaluation mode the stem joined onto the
      output directory, otherwise the path with the input directory replaced;
      then the `_pred.tif` suffix. */
  function PredPath(cfg: Config, p: string): (r: string)
    requires cfg.inputDir != []
    ensures EndsWith(r, "_pred.tif")
    ensures !cfg.evaluateMode ==> r == ReplaceAll(SplitExt(p).0, cfg.inputDir, cfg.outputBaseDir) + "_pred.tif"
  {
    var noext := SplitExt(p).0;
    var tmp := if cfg.evaluateMode then Join(OutputBase(cfg), Split(noext).1)
               else ReplaceAll(noext, cfg.inputDir, OutputBase(cfg));
    var pred := tmp + "_pred.tif";
    assert pred[|pred| - 9..] == "_pred.tif";
    pred
  }

  /** In evaluation mode the prediction path is the stem joined onto the output base. */
  lemma EvalItem(cfg: Config, p: string)
    requires cfg.inputDir != [] && cfg.evaluateMode
    ensures MakeItem(cfg, p).predPath == Join(OutputBase(cfg), Split(SplitExt(p).0).1) + "_pred.tif"
    ensures MakeItem(cfg, p).outputDir == Split(MakeItem(cfg, p).predPath).0
  {
  }

  /** In normal mode, a tile below the input directory whose path holds the
      input directory's name only at its start is mirrored below the output
      directory: the same relative path, its extension replaced by `_pred.tif`. */
  lemma NormalItem(cfg: Config, rest: string)
    requires cfg.inputDir != [] && !cfg.evaluateMode
    requires forall k :: 0 < k ==> !OccursAt(cfg.inputDir + [Sep] + rest, cfg.inputDir, k)
    ensures var it := MakeItem(cfg, cfg.inputDir + [Sep] + rest);
      && it.predPath == cfg.outputBaseDir + [Sep] + SplitExt(rest).0 + "_pred.tif"
      && it.outputDir == Split(it.predPath).0
  {
    var dir := cfg.inputDir;
    var p := dir + [Sep] + rest;
    var noext := SplitExt(p).0;
    SplitExtUnder(dir + [Sep], rest);
    forall k | 0 < k ensures !OccursAt(noext, dir, k) {
      OccursInPrefix(p, dir, |noext|, k);
    }
    ReplaceLeadingDir(noext, dir, cfg.outputBaseDir, SplitExt(rest).0);
  }

  /** Replacing a directory name that occurs only at the start of a path swaps
      that directory for another. */
  lemma ReplaceLeadingDir(s: string, dir: string, base: string, root: string)
    requires |dir| > 0 && s == dir + [Sep] + root
    requires forall k :: 0 < k ==> !OccursAt(s, dir, k)
    ensures ReplaceAll(s, dir, base) == base + [Sep] + root
  {
    assert s[0..|dir|] == dir;
    assert FirstOccurrenceFrom(s, dir, 0, 0);
    ReplaceFirst(s, dir, base, 0);
    NoOccurrenceKept(s, dir, base, |dir|);
    assert s[|dir|..] == [Sep] + root;
  }

  /** The output directory of such a tile: the output directory itself for a
      tile directly in the input directory, otherwise the tile's sub-directory
      below it. */
  lemma NormalItemDir(cfg: Config, sub: string, name: string)
    requires cfg.inputDir != [] && !cfg.evaluateMode && Sep !in name
    requires |cfg.outputBaseDir| > 0 && cfg.outputBaseDir[|cfg.outputBaseDir| - 1] != Sep
    requires sub != [] ==> sub[|sub| - 1] != Sep
    requires var rest := if sub == [] then name else sub + [Sep] + name;
      forall k :: 0 < k ==> !OccursAt(cfg.inputDir + [Sep] + rest, cfg.inputDir, k)
    ensures var rest := if sub == [] then name else sub + [Sep] + name;
      var it := MakeItem(cfg, cfg.inputDir + [Sep] + rest);
      && it.outputDir == (if sub == [] then cfg.outputBaseDir else cfg.outputBaseDir + [Sep] + sub)
      && Basename(it.predPath) == Stem(name) + "_pred.tif"
  {
    var rest := if sub == [] then name else sub + [Sep] + name;
    var root := if sub == [] then Stem(name) else sub + [Sep] + Stem(name);
    PredPathSplits(cfg.outputBaseDir, sub, Stem(name));
    NormalItem(cfg, rest);
    if sub != [] {
      SplitExtUnder(sub + [Sep], name);
    }
    assert SplitExt(rest).0 == root;
    assert MakeItem(cfg, cfg.inputDir + [Sep] + rest).predPath == cfg.outputBaseDir + [Sep] + root + "_pred.tif";
  }

  /** Where a prediction path below the output directory splits. */
  lemma PredPathSplits(base: string, sub: string, stem: string)
    requires |base| > 0 && base[|base| - 1] != Sep && Sep !in stem
    requires sub != [] ==> sub[|sub| - 1] != Sep
    ensures var root := if sub == [] then stem else sub + [Sep] + stem;
      var sp := Split(base + [Sep] + root + "_pred.tif");
      sp.0 == (if sub == [] then base else base + [Sep] + sub) && sp.1 == stem + "_pred.tif"
  {
    var tail := stem + "_pred.tif";
    PredSuffixHasNoSep();
    assert Sep !in tail;
    if sub == [] {
      assert base + [Sep] + stem + "_pred.tif" == base + [Sep] + tail;
      SplitJoined(base, tail);
    } else {
      assert base + [Sep] + (sub + [Sep] + stem) + "_pred.tif" == (base + [Sep] + sub) + [Sep] + tail;
      SplitJoined(base + [Sep] + sub, tail);
    }
  }

  /** The name a tile is logged under. */
  function LogName(it: WorkItem): string
  {
    Basename(it.inputPath)
  }

  function Names(items: seq<WorkItem>): (r: seq<string>)
    ensures |r| == |items|
    ensures forall j :: 0 <= j < |items| ==> r[j] == LogName(items[j])
  {
    seq(|items|, j requires 0 <= j < |items| => LogName(items[j]))
  }

  lemma NamesAppend(a: seq<WorkItem>, b: seq<WorkItem>)
    ensures Names(a + b) == Names(a) + Names(b)
  {
  }

  /** `read_image` for one queued tile. */
  function ReadTile(cfg: Config, env: Env, it: WorkItem): Result<Raster, ReadError>
  {
    ReadImage(it.inputPath, cfg.projectionIfMissing, env.attempts(it.inputPath))
  }

  /** Consuming the results of the parallel map: the first failed read, in batch order, raises. */
  function ReadAll(cfg: Config, env: Env, batch: seq<WorkItem>): (r: Result<seq<Raster>, ReadError>)
    ensures r.Success? <==> forall j :: 0 <= j < |batch| ==> ReadTile(cfg, env, batch[j]).Success?
    ensures r.Success? ==> |r.value| == |batch|
    ensures r.Success? ==> forall j :: 0 <= j < |batch| ==> r.value[j] == ReadTile(cfg, env, batch[j]).value
    ensures r.Failure? ==>
              exists j :: (0 <= j < |batch| && ReadTile(cfg, env, batch[j]) == Failure(r.error)
                           && forall i :: 0 <= i < j ==> ReadTile(cfg, env, batch[i]).Success?)
  {
    if |batch| == 0 then Success([])
    else
      match ReadTile(cfg, env, batch[0])
      case Failure(e) => Failure(e)
      case Success(first) =>
        match ReadAll(cfg, env, batch[1..])
        case Failure(e) =>
          assert forall j :: 0 <= j < |batch| - 1 ==> batch[1..][j] == batch[j + 1];
          Failure(e)
        case Success(rest) =>
          assert forall j :: 0 <= j < |batch| - 1 ==> batch[1..][j] == batch[j + 1];
          Success([first] + rest)
  }

  function Images(rasters: seq<Raster>): (r: seq<Tensor>)
    ensures |r| == |rasters|
  {
    seq(|rasters|, j requires 0 <= j < |rasters| => rasters[j].data)
  }

  /** The body of the `try` block for one tile: clean, save, and in evaluation
      mode the evaluation step. A missing prediction raises inside the block too. */
  function PostprocessTile(cfg: Config, env: Env, it: WorkItem, raster: Raster, pred: Option<Prediction>): (v: Verdict)
    ensures pred.None? ==> v == Failure(MissingPrediction)
    ensures pred.Some? && CleanPrediction(pred.value, cfg.border).Failure? ==>
              v == Failure(CleanFailed(CleanPrediction(pred.value, cfg.border).error))
    ensures v.Success? && v.value.Some? ==> v.value.value == OutputPath(it.outputDir, it.inputPath)
    ensures v.Success? ==> !cfg.evaluateMode || env.evalOk(it.inputPath)
    ensures pred.Some? && CleanPrediction(pred.value, cfg.border).Success? ==>
              var saved := SavePrediction(it.inputPath, CleanPrediction(pred.value, cfg.border).value, raster.transform,
                                          it.outputDir, env.mkdirOk(it.outputDir),
                                          env.writeOk(OutputPath(it.outputDir, it.inputPath)));
              && (saved.Failure? ==> v == Failure(SaveFailed(saved.error)))
              && (saved.Success? && cfg.evaluateMode && !env.evalOk(it.inputPath) ==> v == Failure(EvaluationFailed(saved.value)))
              && (saved.Success? && (!cfg.evaluateMode || env.evalOk(it.inputPath)) ==> v == Success(saved.value))
  {
    match pred
    case None => Failure(MissingPrediction)
    case Some(p) =>
      match CleanPrediction(p, cfg.border)
      case Failure(e) => Failure(CleanFailed(e))
      case Success(mask) =>
        match SavePrediction(it.inputPath, mask, raster.transform, it.outputDir,
                             env.mkdirOk(it.outputDir), env.writeOk(OutputPath(it.outputDir, it.inputPath)))
        case Failure(e) => Failure(SaveFailed(e))
        case Success(saved) =>
          if cfg.evaluateMode && !env.evalOk(it.inputPath) then Failure(EvaluationFailed(saved))
          else Success(saved)
  }

  /** A tile's raster is on disk exactly when the save step wrote one, whatever
      the evaluation step did afterwards, and it lies at the derived output path. */
  lemma WrittenByIsSaved(cfg: Config, env: Env, it: WorkItem, raster: Raster, pred: Option<Prediction>)
    ensures var v := PostprocessTile(cfg, env, it, raster, pred);
      && (WrittenBy(v).Some? <==>
            && pred.Some? && CleanPrediction(pred.value, cfg.border).Success?
            && var saved := SavePrediction(it.inputPath, CleanPrediction(pred.value, cfg.border).value, raster.transform,
                                           it.outputDir, env.mkdirOk(it.outputDir),
                                           env.writeOk(OutputPath(it.outputDir, it.inputPath)));
               saved.Success? && saved.value.Some?)
      && (WrittenBy(v).Some? ==> WrittenBy(v).value == OutputPath(it.outputDir, it.inputPath))
  {
    if pred.Some? && CleanPrediction(pred.value, cfg.border).Success? {
      var saved := SavePrediction(it.inputPath, CleanPrediction(pred.value, cfg.border).value, raster.transform,
                                  it.outputDir, env.mkdirOk(it.outputDir),
                                  env.writeOk(OutputPath(it.outputDir, it.inputPath)));
      if saved.Success? {
        assert WrittenBy(PostprocessTile(cfg, env, it, raster, pred)) == saved.value;
      }
    }
  }

  /** Prediction `j` of the model's output, if it returned that many. */
  function PredictionFor(preds: seq<Prediction>, j: nat): (r: Option<Prediction>)
    ensures r.Some? <==> j < |preds|
    ensures r.Some? ==> r.value == preds[j]
  {
    if j < |preds| then Some(preds[j]) else None
  }

  /** The verdict of every tile of a batch, tile `j` paired with prediction `j`. */
  function Verdicts(cfg: Config, env: Env, batch: seq<WorkItem>, rasters: seq<Raster>, preds: seq<Prediction>): (vs: seq<Verdict>)
    requires |rasters| == |batch|
    ensures |vs| == |batch|
    ensures forall j :: 0 <= j < |batch| ==> vs[j] == PostprocessTile(cfg, env, batch[j], rasters[j], PredictionFor(preds, j))
  {
    seq(|batch|, j requires 0 <= j < |batch| => PostprocessTile(cfg, env, batch[j], rasters[j], PredictionFor(preds, j)))
  }

  /** Reading the batch and running the model; either one raises out of the run. */
  function BatchVerdicts(cfg: Config, env: Env, batch: seq<WorkItem>): (r: Result<seq<Verdict>, Fatal>)
    ensures r.Success? ==> |r.value| == |batch|
    ensures ReadAll(cfg, env, batch).Failure? ==> r == Failure(ReadFatal(ReadAll(cfg, env, batch).error))
    ensures ReadAll(cfg, env, batch).Success? && env.infer(Images(ReadAll(cfg, env, batch).value)).None? ==>
              r == Failure(InferenceFailed)
    ensures r.Success? ==>
              && ReadAll(cfg, env, batch).Success?
              && env.infer(Images(ReadAll(cfg, env, batch).value)).Some?
              && var preds := env.infer(Images(ReadAll(cfg, env, batch).value)).value;
                 forall j :: 0 <= j < |batch| ==>
                   r.value[j] == PostprocessTile(cfg, env, batch[j], ReadTile(cfg, env, batch[j]).value, PredictionFor(preds, j))
  {
    match ReadAll(cfg, env, batch)
    case Failure(e) => Failure(ReadFatal(e))
    case Success(rasters) =>
      match env.infer(Images(rasters))
      case None => Failure(InferenceFailed)
      case Some(preds) => Success(Verdicts(cfg, env, batch, rasters, preds))
  }

  /** The reading, inference and postprocessing of one batch as the prediction
      loop sees it: it either raises or yields one verdict per tile. */
  type BatchStep = f: seq<WorkItem> -> Result<seq<Verdict>, Fatal>
    | forall b :: f(b).Success? ==> |f(b).value| == |b|
    witness (b: seq<WorkItem>) => Failure(InferenceFailed)

  /** The batch step of a run whose reads and model calls are the oracles of `env`. */
  function RunBatch(cfg: Config, env: Env): (r: BatchStep)
    ensures forall b :: r(b) == BatchVerdicts(cfg, env, b)
  {
    b => BatchVerdicts(cfg, env, b)
  }

  /** The names appended to the done log, in tile order. */
  function DoneNames(items: seq<WorkItem>, vs: seq<Verdict>): seq<string>
    requires |items| == |vs|
  {
    if |items| == 0 then []
    else (if vs[0].Success? then [LogName(items[0])] else []) + DoneNames(items[1..], vs[1..])
  }

  /** The names appended to the error log, in tile order. */
  function ErrorNames(items: seq<WorkItem>, vs: seq<Verdict>): seq<string>
    requires |items| == |vs|
  {
    if |items| == 0 then []
    else (if vs[0].Failure? then [LogName(items[0])] else []) + ErrorNames(items[1..], vs[1..])
  }

  /** The rasters written, in tile order, including those of tiles whose
      evaluation step raised after the save. */
  function WrittenPaths(vs: seq<Verdict>): seq<string>
  {
    if |vs| == 0 then []
    else (if WrittenBy(vs[0]).Some? then [WrittenBy(vs[0]).value] else []) + WrittenPaths(vs[1..])
  }

  /** Every postprocessed tile is logged exactly once: the two logs together
      receive exactly the batch's names. */
  lemma {:induction false} TilesLandInExactlyOneLog(items: seq<WorkItem>, vs: seq<Verdict>)
    requires |items| == |vs|
    ensures |DoneNames(items, vs)| + |ErrorNames(items, vs)| == |items|
    ensures multiset(DoneNames(items, vs) + ErrorNames(items, vs)) == multiset(Names(items))
  {
    if |items| > 0 {
      TilesLandInExactlyOneLog(items[1..], vs[1..]);
      LogsStep(items, vs);
    }
  }

  /** One tile's contribution to the two logs. */
  lemma LogsStep(items: seq<WorkItem>, vs: seq<Verdict>)
    requires |items| == |vs| > 0
    ensures multiset(DoneNames(items, vs) + ErrorNames(items, vs))
         == multiset{LogName(items[0])} + multiset(DoneNames(items[1..], vs[1..]) + ErrorNames(items[1..], vs[1..]))
    ensures |DoneNames(items, vs)| + |ErrorNames(items, vs)|
         == 1 + |DoneNames(items[1..], vs[1..])| + |ErrorNames(items[1..], vs[1..])|
    ensures multiset(Names(items)) == multiset{LogName(items[0])} + multiset(Names(items[1..]))
  {
    NamesCons(items);
    var d, e := DoneNames(items[1..], vs[1..]), ErrorNames(items[1..], vs[1..]);
    var n := LogName(items[0]);
    var dn, en := DoneNames(items, vs), ErrorNames(items, vs);
    assert multiset(dn + en) == multiset(dn) + multiset(en);
    assert multiset(d + e) == multiset(d) + multiset(e);
    if vs[0].Success? {
      assert dn == [n] + d && en == e;
      assert multiset(dn) == multiset{n} + multiset(d);
    } else {
      assert dn == d && en == [n] + e;
      assert multiset(en) == multiset{n} + multiset(e);
    }
  }

  lemma NamesCons(items: seq<WorkItem>)
    requires |items| > 0
    ensures Names(items) == [LogName(items[0])] + Names(items[1..])
  {
    var r, t := Names(items), [LogName(items[0])] + Names(items[1..]);
    forall j | 0 <= j < |items| ensures r[j] == t[j] {
      if j > 0 {
        assert t[j] == Names(items[1..])[j - 1];
        assert items[1..][j - 1] == items[j];
      }
    }
  }

  /** A tile with a successful verdict (a blank prediction included) is in the done
      log, one whose postprocessing raised is in the error log. */
  lemma {:induction false} VerdictDecidesLog(items: seq<WorkItem>, vs: seq<Verdict>, j: nat)
    requires |items| == |vs| && j < |items|
    ensures vs[j].Success? ==> LogName(items[j]) in DoneNames(items, vs)
    ensures vs[j].Failure? ==> LogName(items[j]) in ErrorNames(items, vs)
  {
    if j > 0 {
      VerdictDecidesLog(items[1..], vs[1..], j - 1);
    }
  }

  /** When every tile's verdict is `Success(None)`, every name goes to the done log and nothing is written. */
  lemma {:induction false} AllBlankTilesAreDone(items: seq<WorkItem>, vs: seq<Verdict>)
    requires |items| == |vs|
    requires forall j :: 0 <= j < |vs| ==> vs[j] == Success(None)
    ensures DoneNames(items, vs) == Names(items)
    ensures ErrorNames(items, vs) == []
    ensures WrittenPaths(vs) == []
  {
    if |items| > 0 {
      assert forall j :: 0 <= j < |vs| - 1 ==> vs[1..][j] == vs[j + 1];
      AllBlankTilesAreDone(items[1..], vs[1..]);
      NamesCons(items);
      assert vs[0] == Success(None);
    }
  }
}
